=== FILE: README.md ===
# route-maps in Dafny

A model of the delivery-route planner: stops identified by Brazilian postal
codes (CEPs) are resolved to coordinates, ordered, and drawn as a route from
an origin. The model covers

- **route ordering** (`route_manager.dfy`, `route_optimizer.dfy`): renumbering
  stops, the stable sort by delivery number, the completion test, the
  waypoint list for the map, the greedy nearest-neighbour tour over an
  abstract non-negative distance, and the total route length with an optional
  leg back to the origin;
- **the geocoding proxy** (`geocode_gateway.dfy`): the per-client fixed-window
  rate limiter (10 requests per 60 000 ms), input validation, the
  100-entry response cache keyed by the trimmed, lower-cased address, and the
  GET handler as a pure function of state, clock, request and upstream
  outcome;
- **the CEP resolver** (`geocode_service.dfy`): the `^\d{5}-?\d{3}$` format
  gate, removal of the first hyphen, the two address formatters, the proxy
  call with at most four requests and 2 s, 4 s, 8 s back-off, and the whole
  `fetchCepData` decision flow, which answers `None` instead of failing;
- **the import wizard** (`import_wizard.dfy`): splitting typed text on
  newline, comma and semicolon, column auto-detection from spreadsheet
  headers, the per-token and per-row result logic, the success count, and the
  hand-over of the imported stops to the planner;
- **the planner screen** (`route_planner.dfy`): adding the origin, adding,
  removing and dragging stops, and calculating the route.

`wrappers.dfy` holds `Option`; `text.dfy` the few string built-ins used
(trim, lower-case, `includes`, deleting non-digits, decimal printing);
`seqs.dfy` mapping and removal on sequences.

Network replies, the clock and the CEP lookup are parameters: the proxy's
replies are a function from the request number to the reply, the CEP
directory is a function from the query to its reply, `Date.now()` is a number
(or one number per import step), and callers of `fetchCepData` receive it as a
`Resolver`.

## Model

| member | source | states |
|---|---|---|
| RouteManager.UpdateDeliveryOrder | src/lib/route-manager.ts:36-41 | same stops in the same order, the i-th numbered i+1 |
| RouteManager.UpdateDeliveryOrderIdempotent | src/lib/route-manager.ts:36-41 | renumbering a renumbered list changes nothing |
| RouteManager.SortByDeliveryOrder | src/lib/route-manager.ts:19-30 | a permutation of the input, ordered by the comparator: numbered stops first in non-decreasing number, and stable (stops with equal numbers, or none, keep their input order) |
| RouteManager.StableSortIsUnique | src/lib/route-manager.ts:19-30 | any ordered arrangement that keeps the input order within each number is the sort's result |
| RouteManager.SortAfterUpdateIsIdentity | src/lib/route-manager.ts:19-41 | sorting a renumbered list leaves it as it is |
| RouteManager.AllDeliveriesCompleted | src/lib/route-manager.ts:46-48 | true exactly when the list is non-empty and every stop is checked |
| RouteManager.AllCheckedMeansEvery | src/lib/route-manager.ts:46-48 | the recursive test agrees with "every stop is checked" |
| RouteManager.CreateWaypoints | src/lib/route-manager.ts:53-73 | no origin gives no points; otherwise the origin, the stops in sorted order, and the origin again exactly when returning with non-zero origin coordinates |
| RouteManager.WaypointsArePermutedPositions | src/lib/route-manager.ts:60-65 | the points between the origin entries are the stops' positions, reordered |
| RouteOptimizer.Scan | src/lib/route-optimizer.ts:64-77 | the inner loop ends at a stop nearest to the current point, the first such stop |
| RouteOptimizer.NearestNeighborTour | src/lib/route-optimizer.ts:54-88 | the tour visits every unvisited stop exactly once |
| RouteOptimizer.TourIsNearestFirst | src/lib/route-optimizer.ts:64-87 | from wherever it stands, the tour goes next to a nearest remaining stop |
| RouteOptimizer.OptimizeRouteNearestNeighbor | src/lib/route-optimizer.ts:50-95 | empty in, empty out; otherwise a reordering of the same stops, numbered 1..n, each next stop nearest among those left; at every step the next stop is the lowest-index nearest remaining stop (the strict `<` keeps the first on ties) and the rest of the route follows the same rule |
| RouteOptimizer.TourIsGreedy | src/lib/route-optimizer.ts:64-88 | the loop takes, at each step, the first of the nearest remaining stops out of the list and continues from it |
| RouteOptimizer.GreedyTourIsUnique | src/lib/route-optimizer.ts:64-88 | the greedy rule with lowest-index tie-breaking leaves no choice: two tours that follow it visit the same stops in the same order |
| RouteOptimizer.OptimizedRouteKeepsOrderOnTies | src/lib/route-optimizer.ts:70-77 | when every distance ties, the route is the input list renumbered 1..n |
| RouteOptimizer.OptimizedRouteStartsNearest | src/lib/route-optimizer.ts:58-80 | the first stop is the first stop nearest to the origin |
| RouteOptimizer.PathLengthNonNegative | src/lib/route-optimizer.ts:111-119 | a sum of legs is never negative |
| RouteOptimizer.CalculateTotalRouteDistance | src/lib/route-optimizer.ts:104-127 | 0 for no stops; the sum of the legs origin, a1, ..., an; plus exactly the leg back when returning |
| RouteOptimizer.WaypointsFollowOptimizedRoute | src/lib/route-optimizer.ts:91-94 | the map draws an optimized route in tour order, since its numbers are 1..n |
| GeocodeGateway.CheckRateLimit | src/app/api/geocode/route.ts:127-144 | a new key, or one idle longer than the window, opens a window and passes; otherwise the count rises, rejected requests included, and the request passes while the count is within the limit |
| GeocodeGateway.RequestsWithinWindow | src/app/api/geocode/route.ts:127-144 | inside a window the i-th request passes iff the count it reaches is within the limit, and the window start never moves |
| GeocodeGateway.FirstWindowAdmitsTen | src/app/api/geocode/route.ts:19-24 | of the requests within 60 s of a client's first, exactly the first ten pass |
| GeocodeGateway.CacheStore | src/app/api/geocode/route.ts:89-98 | the new entry is stored last in key order; nothing else changes, except that beyond 100 entries the oldest key goes and the order becomes the rest followed by the new key, unless that oldest key is the empty string, in which case nothing is evicted; the cache stays within 100 entries |
| GeocodeGateway.CacheHoldsNewestKeys | src/app/api/geocode/route.ts:89-98 | a cache holding the newest (at most 100) keys stored so far, oldest first, still does after one more store, so every eviction drops the oldest-inserted key |
| GeocodeGateway.ValidIffKeyLongEnough | src/app/api/geocode/route.ts:30-38 | an address passes validation exactly when it is non-empty and its cache key is at least three UTF-16 code units long |
| GeocodeGateway.ValidAddressHasKey | src/app/api/geocode/route.ts:30-38 | a valid address has a non-empty cache key at least three UTF-16 code units long |
| GeocodeGateway.KeyLengthIgnoresCase | src/app/api/geocode/route.ts:30-38 | the cache key (lower-cased, then trimmed) has the same `length` as the trimmed address the validation measured |
| Text.JsLength | src/app/api/geocode/route.ts:30 | `length` counts UTF-16 code units: at least one and at most two per character |
| GeocodeGateway.TrimLengthIgnoresCase | src/app/api/geocode/route.ts:38 | lower-casing does not change how much trimming removes |
| GeocodeGateway.HandleGet | src/app/api/geocode/route.ts:13-118 | each branch's exact reply: refused by the limiter, 429 with the rate-limit message; then an invalid address, 400 with its message; a cache hit, 200 with the cached body; a missing API key, 500 with the configuration message; upstream is called exactly when all of these pass; a timeout gives 408 with its message, an "OK" body is cached and returned with 200, any other outcome 500 with the failure message; the cache only changes by storing an "OK" body, and then it is exactly CacheStore of the old cache; it keeps its invariant |
| GeocodeGateway.RepeatIsServedFromCache | src/app/api/geocode/route.ts:19-41 | after a cache miss answered "OK" upstream, a request for any address with the same key never calls upstream: it gets 200 with the identical body when the limiter admits it, and 429 exactly when the limiter refuses it |
| GeocodeService.ReplaceFirstHyphen | src/lib/geocode-service.ts:46 | only the first hyphen goes; a string without one is unchanged |
| GeocodeService.NormalizedCepIsEightDigits | src/lib/geocode-service.ts:40-46 | every CEP the gate accepts normalises to its eight digits |
| GeocodeService.CepFormatIsEightDigitsSpelled | src/lib/geocode-service.ts:40 | the gate `^\d{5}-?\d{3}$` accepts exactly eight digits, written bare or with a hyphen after the fifth |
| GeocodeService.HyphenateRoundTrip | src/lib/geocode-service.ts:40-46 | both spellings of eight digits pass the gate and normalise to those digits |
| GeocodeService.DescriptionShowsMissingParts | src/lib/geocode-service.ts:89-91 | a missing street or neighbourhood reads like an empty one, while a missing city or state reads differently from an empty one (it prints as `undefined`) |
| GeocodeService.FormatAddressForGeocoding | src/lib/geocode-service.ts:89-98 | the geocoding address is the description followed by the CEP |
| GeocodeService.RetryFrom | src/lib/geocode-service.ts:110-164 | from attempt r on: stops at the first ok reply, else after attempt 4; waits 2^k s after the k-th failed attempt |
| GeocodeService.GeocodeAddressWithProxy | src/lib/geocode-service.ts:104-171 | one to four requests; every reply before the last was not ok; fewer than four only if the last was ok; the result is the first result of an ok reply, else None; waits 2000, 4000, 8000 ms |
| GeocodeService.PersistentRateLimitGivesUp | src/lib/geocode-service.ts:123-134 | a proxy answering 429 forever is asked four times, waits 2, 4, 8 s, and gives None |
| GeocodeService.FirstOkReplyIsFinal | src/lib/geocode-service.ts:136-153 | an ok first reply settles the result at once, even without results |
| GeocodeService.FetchCepData | src/lib/geocode-service.ts:37-84 | no lookup for a malformed CEP; the directory is asked for the eight digits; its coordinates are used when both are present, otherwise the formatted address goes to the proxy; failures give None |
| GeocodeService.HyphenDoesNotMatter | src/lib/geocode-service.ts:40-49 | "12345-678" and "12345678" resolve identically |
| ImportWizard.SplitFields | src/components/import-wizard/use-import-wizard.tsx:149-150 | at least one piece, none holding a separator |
| ImportWizard.SplitFieldThenRest | src/components/import-wizard/use-import-wizard.tsx:149-150 | a separator-free field followed by any separator splits off as one piece, and splitting continues after it |
| ImportWizard.SplitSingleField | src/components/import-wizard/use-import-wizard.tsx:149-150 | a separator-free text is a single piece |
| ImportWizard.MixedSeparatorsSplit | src/components/import-wizard/use-import-wizard.tsx:149-150 | "a,b;c\nd" splits into the four pieces a, b, c, d |
| ImportWizard.SplitJoinRoundTrip | src/components/import-wizard/use-import-wizard.tsx:149-150 | splitting undoes joining separator-free fields with any mixture of newline, comma and semicolon between them |
| ImportWizard.TrimNonEmpty | src/components/import-wizard/use-import-wizard.tsx:151-152 | every token is non-empty with no white space at either end; one piece gives its trimmed text, or nothing when that is empty |
| ImportWizard.TrimNonEmptyConcat | src/components/import-wizard/use-import-wizard.tsx:151-152 | trimming and dropping empties works piece by piece, so with the one-piece case it fixes the token list: in order, nothing lost or invented |
| ImportWizard.ManualTokensRoundTrip | src/components/import-wizard/use-import-wizard.tsx:149-152 | clean CEPs typed with any separator come back as exactly that list |
| ImportWizard.FirstMatch | src/components/import-wizard/use-import-wizard.tsx:52-63 | the first header the test accepts, or None when none does |
| ImportWizard.AutoDetectColumns | src/components/import-wizard/use-import-wizard.tsx:52-71 | the first CEP-like and first description-like headers are chosen; with none, the earlier choice stays |
| ImportWizard.TypicalHeadersAreDetected | src/components/import-wizard/use-import-wizard.tsx:52-71 | "Nome", "Endereço", "CEP" maps CEP to "CEP" and the description to "Endereço" |
| ImportWizard.ImportedAddress | src/components/import-wizard/use-import-wizard.tsx:170-178 | an imported stop is geocoded, unchecked, at the resolved coordinates, numbered position+1 |
| ImportWizard.ManualEntry | src/components/import-wizard/use-import-wizard.tsx:158-186 | success iff the token reduces to eight digits the resolver places; errors carry the raw token or its digits |
| ImportWizard.CsvEntry | src/components/import-wizard/use-import-wizard.tsx:98-131 | like a token, but the row's non-empty description wins; an invalid row records its raw trimmed cell as cep (the placeholder when the cell is missing), an unresolved row its digits |
| ImportWizard.CsvEntryIsManualEntry | src/components/import-wizard/use-import-wizard.tsx:98-131 | a row with a CEP cell gets the cep and status that typing the cell by hand gives, the same stop unless its own description is non-empty, and without a description cell the same entry apart from the preview's description |
| ImportWizard.SuccessCountExtremes | src/components/import-wizard/use-import-wizard.tsx:211 | the count is 0 exactly when no result succeeded, and equals the number of results exactly when all did |
| ImportWizard.ManualSuccessCount | src/components/import-wizard/use-import-wizard.tsx:211 | the success count is the number of tokens that reduce to eight resolvable digits |
| ImportWizard.ProcessTokens | src/components/import-wizard/use-import-wizard.tsx:157-188 | one result per token, in order, each that token's entry at its position |
| ImportWizard.ProcessManualCeps | src/components/import-wizard/use-import-wizard.tsx:143-193 | one result per token of the typed text, and the success count of resolvable tokens |
| ImportWizard.ProcessCsv | src/components/import-wizard/use-import-wizard.tsx:92-134 | one result per row, in order, each that row's entry at its position |
| ImportWizard.ImportedAddressesAreSuccessStops | src/components/import-wizard/import-wizard-dialog.tsx:52-56 | every stop a successful result carries is handed over, and every handed-over stop is the stop of some successful result |
| ImportWizard.ImportedOrdersIncrease | src/components/import-wizard/import-wizard-dialog.tsx:52-56 | the handed-over stops carry strictly increasing numbers within 1..n |
| ImportWizard.ImportedCountIsSuccessCount | src/components/import-wizard/import-wizard-dialog.tsx:53-55 | one handed-over stop per success |
| ImportWizard.ImportedStopsAreInDeliveryOrder | src/components/import-wizard/import-wizard-dialog.tsx:52-56 | the handed-over stops are already in delivery order, so sorting keeps them |
| ImportWizard.ManualImportIsNumbered | src/components/import-wizard/use-import-wizard.tsx:176 | a manual import numbers each stop by its result position |
| ImportWizard.CsvImportIsNumbered | src/components/import-wizard/use-import-wizard.tsx:122 | a spreadsheet import numbers each stop by its result position |
| ImportWizard.ManualImportIdsAreDistinct | src/components/import-wizard/use-import-wizard.tsx:171 | with a clock that never runs back, no two imported stops share an id |
| RoutePlanner.HandleAddOrigin | src/components/route-planner/route-planner-client.tsx:46-75 | empty box: nothing; else one lookup; found: origin set with the typed id and box cleared; not found: the message |
| RoutePlanner.RouteStartsAtAddedOrigin | src/components/route-planner/route-planner-client.tsx:46-75 | after a found origin, pressing again does nothing, and the calculated route begins at the resolved coordinates |
| RoutePlanner.AddAddressWith | src/components/route-planner/route-planner-client.tsx:77-120 | empty box: nothing; listed: duplicate message, no lookup; found: appended as stop n+1 with id CEP-clock; not found: the message |
| RoutePlanner.HandleAddAddressAsWritten | src/components/route-planner/route-planner-client.tsx:84-88 | a CEP no id equals verbatim is always looked up and, when found, appended |
| RoutePlanner.HandleAddAddressIntended | src/components/route-planner/route-planner-client.tsx:84-88 | the corrected duplicate test of the finding below: a CEP that some stop's id belongs to (the bare CEP or CEP-clock) is refused with the duplicate message and no lookup, and any other non-empty CEP is looked up |
| RoutePlanner.AddedIdIsOfCep | src/components/route-planner/route-planner-client.tsx:97 | a hand-added id is never the bare CEP, and it is recognised as the CEP's |
| RoutePlanner.DuplicateCheckMissesAddedCep | src/components/route-planner/route-planner-client.tsx:84-97 | as written, adding one CEP twice lists it twice |
| RoutePlanner.DuplicateCheckCatchesAddedCep | src/components/route-planner/route-planner-client.tsx:84-97 | with the intended test, the second add is refused |
| RoutePlanner.RemoveById | src/components/route-planner/route-planner-client.tsx:122-124 | no stop with the id remains, every other stop does, nothing new appears, and the survivors keep their relative order (a subsequence of the input); a one-stop list is emptied exactly when the id matches |
| RoutePlanner.RemoveByIdConcat | src/components/route-planner/route-planner-client.tsx:122-124 | filtering works piece by piece, so with the one-stop case it fixes the result: exactly the other stops, in their order |
| RoutePlanner.RemoveAbsentIdIsIdentity | src/components/route-planner/route-planner-client.tsx:122-124 | removing an unknown id changes nothing |
| RoutePlanner.RemoveTwiceIsRemoveOnce | src/components/route-planner/route-planner-client.tsx:122-124 | removal is idempotent |
| RoutePlanner.RemoveKeepsDeliveryOrder | src/components/route-planner/route-planner-client.tsx:122-124 | a list in delivery order is still in delivery order after a removal |
| RoutePlanner.HandleRemoveAddress | src/components/route-planner/route-planner-client.tsx:122-124 | only the list changes: it loses the stops with the id and keeps every other stop in order, each with as many copies as before |
| RoutePlanner.RemoveByIdKeepsCopies | src/components/route-planner/route-planner-client.tsx:122-124 | the filter keeps every copy of every stop without the id |
| RoutePlanner.InsertAt | src/components/route-planner/route-planner-client.tsx:130 | the item lands at the index, what was before stays before and what was after stays after |
| RoutePlanner.Reorder | src/components/route-planner/route-planner-client.tsx:128-130 | the dragged item lands at the drop index, the others keep their relative order |
| RoutePlanner.ReorderBackRestores | src/components/route-planner/route-planner-client.tsx:128-130 | dragging back from the landing index restores the list |
| RoutePlanner.HandleDragEnd | src/components/route-planner/route-planner-client.tsx:126-135 | no destination: nothing; else the stop moves, the others keep their order, and the list is renumbered 1..n |
| RoutePlanner.DragBackRestores | src/components/route-planner/route-planner-client.tsx:126-135 | dragging there and back gives the renumbered original list |
| RoutePlanner.CalculateRoute | src/components/route-planner/route-planner-client.tsx:140-162 | no origin, no stops or a running calculation: nothing; else the waypoints are exactly those the route manager builds from the origin, the stops and the return flag, and the map key advances |
| RoutePlanner.RouteFollowsDraggedOrder | src/components/route-planner/route-planner-client.tsx:149-150 | after a drag the route is drawn in the new list order |
| Text.DigitsOnly | src/components/import-wizard/use-import-wizard.tsx:159 | the result is all digits, no longer than the input, and an all-digit input is kept as it is; one character is kept when a digit and deleted otherwise |
| Text.DigitsOnlyConcat | src/components/import-wizard/use-import-wizard.tsx:159 | deleting non-digits works piece by piece |

## Left out

- The great-circle distance and its floating-point arithmetic: the optimizer works over any non-negative distance, so the result holds for the haversine formula too. The total route distance sums its legs as exact reals, where the code adds floating-point numbers one leg at a time, so rounding is not modelled.
- Each import uses one `Resolver` for the whole batch, so a CEP listed twice gets the same answer both times. In the application every `fetchCepData` call meets its own directory and proxy replies, and the proxy's limit of ten requests a minute can make a CEP that succeeded early in a batch fail later.
- The scan's initial `Number.MAX_VALUE`: the model starts the scan at the first unvisited stop, which picks the same stop whenever every distance is finite.
- Missing or `NaN` coordinates: every stop the application builds carries numbers; coordinates are reals that are always present.
- `parseFloat` of the directory's coordinate text: the parsed number is part of the reply.
- Unicode white space and case mapping in `trim` and `toLowerCase`: only ASCII is modelled. `length` is counted in UTF-16 code units, as JavaScript does.
- Loading and progress flags, the 300 ms and 500 ms delays, the progress percentage, the 5 s abort timer itself (its firing is an upstream outcome), logging.
- The `catch` branches around `fetchCepData` in the wizard and the planner: it never throws, so they cannot run.
- A JSON body that does not parse, or parses to an unexpected shape: the directory reply and the proxy reply are already typed values.
- Concurrency between handlers and React's batched state updates: each handler is one atomic step.
- The route optimizer button and its `addresses.length < 2` guard: it only calls the optimizer.
- Time estimates, map drawing and Leaflet components.
- GeocodeService.GeocodeAddressWithProxy: a proxy reply with status 429 and one failing with another status are both "not ok" in the contract; the code takes separate branches for them that lead to the same counter and waits.
- Response caching time-to-live, caching of failures, `Retry-After`, a secondary provider and a route penalty for barriers are described for the system but do not occur in the code; the model follows the code. Likewise the code makes up to four proxy requests (three retries), not three in all.

## Findings

| source | as written | input that shows it | evidently intended | confidence | as-written member | corrected member |
|---|---|---|---|---|---|---|
| src/components/route-planner/route-planner-client.tsx:84-97 | the duplicate test compares each stop's id with the typed CEP, but hand-added ids are the CEP followed by "-" and the clock reading, so the test never matches them | type "01001000", add it (found), type "01001000" again and add: the list holds it twice and no duplicate message appears | refuse a CEP already in the list with "Este CEP já foi adicionado à lista." | high; not executed | RoutePlanner.DuplicateCheckMissesAddedCep | RoutePlanner.DuplicateCheckCatchesAddedCep |

=== FILE: geocode_gateway.dfy ===
/**
 * The server-side geocoding proxy: a fixed-window rate limiter per client,
 * input validation, and a bounded response cache in front of the upstream
 * geocoding provider. The handler is a pure function of the state, the clock
 * and the upstream outcome, returning the next state and the reply.
 */
module GeocodeGateway {
  import opened Wrappers
  import opened Text
  import opened RouteManager

  const RequestLimit: int := 10
  const WindowMs: int := 60000
  const MaxCacheEntries: nat := 100
  const MinAddressLength: nat := 3

  // ---------------------------------------------------------------------------
  // checkRateLimit

  datatype RateRecord = RateRecord(count: int, timestamp: int)

  datatype RateCheck = RateCheck(counts: map<string, RateRecord>, allowed: bool)

  /**
   * A key's first request, or its first once more than `windowMs` has passed
   * since its window opened, opens a new window and is allowed. Any other
   * request is counted, rejected ones included, and allowed while the count
   * stays within `limit`. Only opening a window moves the timestamp.
   */
  function CheckRateLimit(counts: map<string, RateRecord>, key: string, limit: int, windowMs: int, now: int): (c: RateCheck)
    requires 1 <= limit && 0 <= windowMs
    ensures c.counts.Keys == counts.Keys + {key}
    ensures forall k :: k in counts && k != key ==> c.counts[k] == counts[k]
    ensures key !in counts || now - counts[key].timestamp > windowMs ==>
      c.counts[key] == RateRecord(1, now) && c.allowed
    ensures key in counts && now - counts[key].timestamp <= windowMs ==>
      && c.counts[key].timestamp == counts[key].timestamp
      && c.counts[key].count == counts[key].count + 1
      && (c.allowed <==> c.counts[key].count <= limit)
  {
    var record := if key in counts then counts[key] else RateRecord(0, now);
    if now - record.timestamp > windowMs then
      RateCheck(counts[key := RateRecord(1, now)], true)
    else
      var updated := record.(count := record.count + 1);
      RateCheck(counts[key := updated], updated.count <= limit)
  }

  datatype RateRun = RateRun(counts: map<string, RateRecord>, verdicts: seq<bool>)

  /** Requests from one key at the clock readings `times`, one after another. */
  function RunRequests(counts: map<string, RateRecord>, key: string, limit: int, windowMs: int, times: seq<int>): (r: RateRun)
    requires 1 <= limit && 0 <= windowMs
    ensures |r.verdicts| == |times|
    decreases |times|
  {
    if |times| == 0 then RateRun(counts, [])
    else
      var c := CheckRateLimit(counts, key, limit, windowMs, times[0]);
      var rest := RunRequests(c.counts, key, limit, windowMs, times[1..]);
      RateRun(rest.counts, [c.allowed] + rest.verdicts)
  }

  /**
   * Inside an open window the i-th further request is allowed exactly when
   * the count it brings the key to is within the limit; the window's start
   * never moves, however many are rejected.
   */
  lemma {:induction false} RequestsWithinWindow(counts: map<string, RateRecord>, key: string, limit: int, windowMs: int, times: seq<int>)
    requires 1 <= limit && 0 <= windowMs
    requires key in counts
    requires forall i :: 0 <= i < |times| ==> times[i] - counts[key].timestamp <= windowMs
    ensures var r := RunRequests(counts, key, limit, windowMs, times);
      && key in r.counts
      && r.counts[key] == RateRecord(counts[key].count + |times|, counts[key].timestamp)
      && forall i :: 0 <= i < |times| ==> (r.verdicts[i] <==> counts[key].count + i + 1 <= limit)
    decreases |times|
  {
    if |times| > 0 {
      var c := CheckRateLimit(counts, key, limit, windowMs, times[0]);
      RequestsWithinWindow(c.counts, key, limit, windowMs, times[1..]);
    }
  }

  /**
   * A client's first ever request opens a window; of all the requests made
   * within 60 s of it, the first ten pass and every later one gets 429.
   */
  lemma FirstWindowAdmitsTen(counts: map<string, RateRecord>, key: string, times: seq<int>)
    requires key !in counts
    requires |times| > 0
    requires forall i :: 0 <= i < |times| ==> times[i] - times[0] <= WindowMs
    ensures var r := RunRequests(counts, key, RequestLimit, WindowMs, times);
      forall i :: 0 <= i < |times| ==> (r.verdicts[i] <==> i < 10)
  {
    var c := CheckRateLimit(counts, key, RequestLimit, WindowMs, times[0]);
    RequestsWithinWindow(c.counts, key, RequestLimit, WindowMs, times[1..]);
  }

  // ---------------------------------------------------------------------------
  // The response cache

  datatype GeocodeResult = GeocodeResult(formattedAddress: string, location: Point)

  /** The upstream provider's JSON body. */
  datatype GeocodeResponse = GeocodeResponse(status: string, results: seq<GeocodeResult>, errorMessage: Option<string>)

  /** A Map together with the insertion order of its keys, which is what its iterator yields. */
  datatype Cache = Cache(order: seq<string>, entries: map<string, GeocodeResponse>)

  predicate Distinct(s: seq<string>) {
    forall i, j :: 0 <= i < j < |s| ==> s[i] != s[j]
  }

  function KeySet(s: seq<string>): set<string> {
    set k | k in s
  }

  predicate ValidCache(c: Cache) {
    Distinct(c.order) && c.entries.Keys == KeySet(c.order)
  }

  lemma AppendKey(order: seq<string>, key: string)
    requires Distinct(order) && key !in order
    ensures Distinct(order + [key]) && KeySet(order + [key]) == KeySet(order) + {key}
  {
  }

  lemma DropOldest(order: seq<string>)
    requires Distinct(order) && |order| > 0
    ensures Distinct(order[1..]) && KeySet(order[1..]) == KeySet(order) - {order[0]}
  {
    assert order == [order[0]] + order[1..];
  }

  /** The cache as the handler keeps it: at most 100 entries, no empty key. */
  predicate CacheInvariant(c: Cache) {
    && ValidCache(c)
    && |c.order| <= MaxCacheEntries
    && (forall i :: 0 <= i < |c.order| ==> c.order[i] != "")
  }

  /**
   * Insert a key the cache lacks, then, when over 100 entries, delete the
   * oldest key if it is non-empty. Nothing else changes; the evicted key is
   * never the one just inserted.
   */
  function CacheStore(c: Cache, key: string, value: GeocodeResponse): (r: Cache)
    requires ValidCache(c)
    requires key !in c.entries
    ensures ValidCache(r)
    ensures key in r.entries && r.entries[key] == value
    ensures forall k :: k in r.entries && k != key ==> k in c.entries && r.entries[k] == c.entries[k]
    ensures forall k :: k in c.entries && k !in r.entries ==> |c.order| >= MaxCacheEntries && k == c.order[0]
    ensures |c.order| < MaxCacheEntries ==> r.order == c.order + [key]
    ensures |c.order| >= MaxCacheEntries && c.order[0] != "" ==> r.order == c.order[1..] + [key]
    ensures !(|c.order| >= MaxCacheEntries && c.order[0] != "") ==> r.order == c.order + [key]
    ensures CacheInvariant(c) && key != "" ==> CacheInvariant(r)
  {
    var grown := Cache(c.order + [key], c.entries[key := value]);
    if |grown.order| > MaxCacheEntries && grown.order[0] != "" then
      var oldest := grown.order[0];
      StoreWithEviction(c, key, value);
      Cache(grown.order[1..], grown.entries - {oldest})
    else
      StoreWithoutEviction(c, key, value);
      grown
  }

  /** What storing `key` promises, bundled so that each branch of the store can prove it apart. */
  predicate Stored(c: Cache, key: string, value: GeocodeResponse, r: Cache) {
    && ValidCache(r)
    && key in r.entries && r.entries[key] == value
    && (forall k :: k in r.entries && k != key ==> k in c.entries && r.entries[k] == c.entries[k])
    && (forall k :: k in c.entries && k !in r.entries ==> |c.order| >= MaxCacheEntries && k == c.order[0])
    && (|c.order| < MaxCacheEntries ==> r.order == c.order + [key])
    && (|c.order| >= MaxCacheEntries && c.order[0] != "" ==> r.order == c.order[1..] + [key])
    && (!(|c.order| >= MaxCacheEntries && c.order[0] != "") ==> r.order == c.order + [key])
    && (CacheInvariant(c) && key != "" ==> CacheInvariant(r))
  }

  lemma StoreWithoutEviction(c: Cache, key: string, value: GeocodeResponse)
    requires ValidCache(c) && key !in c.entries
    requires !(|c.order| + 1 > MaxCacheEntries && (c.order + [key])[0] != "")
    ensures Stored(c, key, value, Cache(c.order + [key], c.entries[key := value]))
  {
    AppendKey(c.order, key);
    var g := c.order + [key];
    if CacheInvariant(c) && key != "" {
      assert |c.order| < MaxCacheEntries;
      assert forall i :: 0 <= i < |g| ==> g[i] != "" by {
        forall i | 0 <= i < |g| ensures g[i] != "" {
          if i < |c.order| {
            assert g[i] == c.order[i];
          }
        }
      }
    }
  }

  lemma StoreWithEviction(c: Cache, key: string, value: GeocodeResponse)
    requires ValidCache(c) && key !in c.entries
    requires |c.order| + 1 > MaxCacheEntries && (c.order + [key])[0] != ""
    ensures var g := c.order + [key];
      Stored(c, key, value, Cache(g[1..], c.entries[key := value] - {g[0]}))
  {
    AppendKey(c.order, key);
    var g := c.order + [key];
    DropOldest(g);
    assert g[0] == c.order[0] && c.order[0] in KeySet(c.order);
    var t := g[1..];
    assert t == c.order[1..] + [key];
    if CacheInvariant(c) && key != "" {
      assert forall i :: 0 <= i < |t| ==> t[i] != "" by {
        forall i | 0 <= i < |t| ensures t[i] != "" {
          assert t[i] == g[i + 1];
          if i + 1 < |c.order| {
            assert g[i + 1] == c.order[i + 1];
          }
        }
      }
    }
  }

  /** The last 100 keys of `history` (all of it when shorter), oldest first. */
  function Newest(history: seq<string>): (r: seq<string>)
    ensures |r| <= MaxCacheEntries
  {
    if |history| <= MaxCacheEntries then history else history[|history| - MaxCacheEntries..]
  }

  /**
   * Eviction drops the oldest-inserted key: a cache of non-empty keys that
   * holds the newest keys stored so far, in the order they were stored,
   * still does after one more store.
   */
  lemma CacheHoldsNewestKeys(c: Cache, key: string, value: GeocodeResponse, history: seq<string>)
    requires CacheInvariant(c) && key != "" && key !in c.entries
    requires c.order == Newest(history)
    ensures CacheStore(c, key, value).order == Newest(history + [key])
  {
    var h := history + [key];
    if |history| >= MaxCacheEntries {
      var n := |history|;
      assert c.order == history[n - MaxCacheEntries..];
      assert c.order[0] != "";
      assert c.order[1..] + [key] == h[|h| - MaxCacheEntries..];
    }
  }

  // ---------------------------------------------------------------------------
  // GET /api/geocode

  /** What the upstream fetch came to. */
  datatype Upstream =
    | TimedOut                        // the 5 s abort fired
    | FetchFailed(message: string)    // fetch or JSON parsing threw
    | HttpError(code: nat)            // a status outside 200..299
    | Delivered(data: GeocodeResponse)

  datatype Body =
    | Data(response: GeocodeResponse)
    | Failure(error: string, details: Option<string>)

  datatype Reply = Reply(status: int, body: Body)

  datatype GatewayState = GatewayState(counts: map<string, RateRecord>, cache: Cache)

  /** The reply, the next state, and whether the upstream provider was called. */
  datatype Handled = Handled(state: GatewayState, reply: Reply, calledUpstream: bool)

  const RateLimitedMessage := "Rate limit exceeded. Please try again later."
  const InvalidAddressMessage := "Address is required and must be at least 3 characters"
  const ConfigurationMessage := "API configuration error"
  const FailedMessage := "Failed to geocode address"
  const TimeoutMessage := "Request timeout. Please try again."

  /** The `x-forwarded-for` header, or "unknown" when absent or empty. */
  function ClientKey(forwardedFor: Option<string>): string {
    if forwardedFor.Some? && forwardedFor.value != "" then forwardedFor.value else "unknown"
  }

  /** Present, and at least three UTF-16 code units long once trimmed. */
  predicate ValidAddress(address: Option<string>) {
    address.Some? && address.value != "" && JsLength(Trim(address.value)) >= MinAddressLength
  }

  function CacheKey(address: string): string {
    Trim(ToLower(address))
  }

  /** Validation could as well be read off the cache key: it is equally long once trimmed. */
  lemma ValidIffKeyLongEnough(address: string)
    ensures ValidAddress(Some(address)) <==> address != "" && JsLength(CacheKey(address)) >= MinAddressLength
  {
    KeyLengthIgnoresCase(address);
  }

  lemma ValidAddressHasKey(address: string)
    requires ValidAddress(Some(address))
    ensures JsLength(CacheKey(address)) >= MinAddressLength
    ensures CacheKey(address) != ""
  {
    TrimLengthIgnoresCase(address);
    KeyLengthIgnoresCase(address);
  }

  /** ASCII lower-casing keeps each character's UTF-16 code-unit count. */
  lemma LowerCharKeepsCodeUnits(c: char)
    ensures CodeUnits(LowerChar(c)) == CodeUnits(c)
    ensures IsSpace(LowerChar(c)) <==> IsSpace(c)
  {
  }

  /** The cache key is as long, in code units, as the trimmed address. */
  lemma KeyLengthIgnoresCase(s: string)
    ensures JsLength(Trim(ToLower(s))) == JsLength(Trim(s))
  {
    var l := ToLower(s);
    assert SameShape(s, l) by {
      forall i | 0 <= i < |s|
        ensures CodeUnits(s[i]) == CodeUnits(l[i]) && (IsSpace(s[i]) <==> IsSpace(l[i]))
      {
        LowerCharKeepsCodeUnits(s[i]);
      }
    }
    ShapeKeepsTrimmedLength(s, l);
  }

  /** Two strings with spaces in the same places and characters of the same widths. */
  predicate SameShape(x: string, y: string) {
    && |x| == |y|
    && forall i :: 0 <= i < |x| ==> CodeUnits(x[i]) == CodeUnits(y[i]) && (IsSpace(x[i]) <==> IsSpace(y[i]))
  }

  /** Trimming cuts strings with spaces in the same places at the same places. */
  lemma ShapeTrimsAlike(s: string, l: string)
    requires |s| == |l|
    requires forall i :: 0 <= i < |s| ==> (IsSpace(l[i]) <==> IsSpace(s[i]))
    ensures |TrimStart(s)| == |TrimStart(l)| && |Trim(s)| == |Trim(l)|
  {
    TrimStartLength(s, l);
    TrimEndLength(TrimStart(s), TrimStart(l));
  }

  /** Trimming strings of the same shape leaves the same `length`. */
  lemma ShapeKeepsTrimmedLength(s: string, l: string)
    requires SameShape(s, l)
    ensures JsLength(Trim(l)) == JsLength(Trim(s))
  {
    ShapeTrimsAlike(s, l);
    var p, m := |s| - |TrimStart(s)|, |Trim(s)|;
    TrimIsSlice(s, p, m);
    TrimIsSlice(l, p, m);
    SliceKeepsShape(s, l, p, m);
    JsLengthPointwise(l[p..p + m], s[p..p + m]);
  }

  /** Strings of the same shape have slices of the same shape. */
  lemma SliceKeepsShape(s: string, l: string, p: nat, m: nat)
    requires SameShape(s, l) && p + m <= |s|
    ensures SameShape(s[p..p + m], l[p..p + m])
  {
    var a, b := s[p..p + m], l[p..p + m];
    forall i | 0 <= i < m ensures CodeUnits(a[i]) == CodeUnits(b[i]) && (IsSpace(a[i]) <==> IsSpace(b[i])) {
      assert a[i] == s[p + i] && b[i] == l[p + i];
    }
  }


  /** Lower-casing (ASCII) never turns a space into a non-space or back. */
  lemma {:induction false} TrimLengthIgnoresCase(s: string)
    ensures |Trim(ToLower(s))| == |Trim(s)|
  {
    var l := ToLower(s);
    assert forall i :: 0 <= i < |s| ==> (IsSpace(l[i]) <==> IsSpace(s[i]));
    TrimStartLength(s, l);
    var a, b := TrimStart(s), TrimStart(l);
    TrimEndLength(a, b);
  }

  lemma {:induction false} TrimStartLength(s: string, l: string)
    requires |s| == |l|
    requires forall i :: 0 <= i < |s| ==> (IsSpace(l[i]) <==> IsSpace(s[i]))
    ensures |TrimStart(s)| == |TrimStart(l)|
    ensures forall i :: 0 <= i < |TrimStart(s)| ==> (IsSpace(TrimStart(l)[i]) <==> IsSpace(TrimStart(s)[i]))
    decreases |s|
  {
    if |s| > 0 && IsSpace(s[0]) {
      TrimStartLength(s[1..], l[1..]);
    }
  }

  lemma {:induction false} TrimEndLength(s: string, l: string)
    requires |s| == |l|
    requires forall i :: 0 <= i < |s| ==> (IsSpace(l[i]) <==> IsSpace(s[i]))
    ensures |TrimEnd(s)| == |TrimEnd(l)|
    decreases |s|
  {
    if |s| > 0 && IsSpace(s[|s| - 1]) {
      TrimEndLength(s[..|s| - 1], l[..|l| - 1]);
    }
  }

  /**
   * The GET handler. The rate check comes first, so every request, even a
   * malformed one, spends quota; validation comes next; a cache hit is
   * served before the API key is looked at; only an upstream body with
   * status "OK" is cached; a 429 carries no retry hint.
   */
  /** Whether the rate limiter lets this client's request through at `now`. */
  predicate Admitted(st: GatewayState, now: int, forwardedFor: Option<string>) {
    CheckRateLimit(st.counts, ClientKey(forwardedFor), RequestLimit, WindowMs, now).allowed
  }

  function HandleGet(
    st: GatewayState, now: int, forwardedFor: Option<string>, address: Option<string>,
    apiKeyPresent: bool, upstream: Upstream): (h: Handled)
    requires ValidCache(st.cache)
    ensures h.state.counts == CheckRateLimit(st.counts, ClientKey(forwardedFor), RequestLimit, WindowMs, now).counts
    ensures !Admitted(st, now, forwardedFor) ==>
      h.reply == Reply(429, Failure(RateLimitedMessage, None)) && h.state.cache == st.cache
    ensures Admitted(st, now, forwardedFor) && !ValidAddress(address) ==>
      h.reply == Reply(400, Failure(InvalidAddressMessage, None)) && h.state.cache == st.cache
    ensures Admitted(st, now, forwardedFor) && ValidAddress(address) && CacheKey(address.value) in st.cache.entries ==>
      h.reply == Reply(200, Data(st.cache.entries[CacheKey(address.value)])) && h.state.cache == st.cache
    ensures Admitted(st, now, forwardedFor) && ValidAddress(address) && CacheKey(address.value) !in st.cache.entries
              && !apiKeyPresent ==>
      h.reply == Reply(500, Failure(ConfigurationMessage, None)) && h.state.cache == st.cache
    ensures h.calledUpstream <==>
      && Admitted(st, now, forwardedFor)
      && ValidAddress(address)
      && CacheKey(address.value) !in st.cache.entries
      && apiKeyPresent
    ensures h.state.cache != st.cache ==> h.calledUpstream && upstream.Delivered? && upstream.data.status == "OK"
    ensures h.calledUpstream && upstream.Delivered? && upstream.data.status == "OK" ==>
      && h.reply == Reply(200, Data(upstream.data))
      && CacheKey(address.value) in h.state.cache.entries
      && h.state.cache.entries[CacheKey(address.value)] == upstream.data
    ensures h.calledUpstream && upstream.Delivered? && upstream.data.status == "OK" ==>
      h.state.cache == CacheStore(st.cache, CacheKey(address.value), upstream.data)
    ensures h.calledUpstream && upstream.TimedOut? ==>
      h.reply == Reply(408, Failure(TimeoutMessage, None))
    ensures h.calledUpstream && !upstream.TimedOut? && !(upstream.Delivered? && upstream.data.status == "OK") ==>
      h.reply.status == 500 && h.reply.body.Failure? && h.reply.body.error == FailedMessage
    ensures ValidCache(h.state.cache)
    ensures CacheInvariant(st.cache) ==> CacheInvariant(h.state.cache)
  {
    var rate := CheckRateLimit(st.counts, ClientKey(forwardedFor), RequestLimit, WindowMs, now);
    var limited := st.(counts := rate.counts);
    if !rate.allowed then
      Handled(limited, Reply(429, Failure(RateLimitedMessage, None)), false)
    else if !ValidAddress(address) then
      Handled(limited, Reply(400, Failure(InvalidAddressMessage, None)), false)
    else
      var key := CacheKey(address.value);
      if key in st.cache.entries then
        Handled(limited, Reply(200, Data(st.cache.entries[key])), false)
      else if !apiKeyPresent then
        Handled(limited, Reply(500, Failure(ConfigurationMessage, None)), false)
      else
        match upstream
        case TimedOut =>
          Handled(limited, Reply(408, Failure(TimeoutMessage, None)), true)
        case FetchFailed(message) =>
          Handled(limited, Reply(500, Failure(FailedMessage, Some(message))), true)
        case HttpError(code) =>
          Handled(limited, Reply(500, Failure(FailedMessage, Some("HTTP error! Status: " + NatToString(code)))), true)
        case Delivered(data) =>
          if data.status != "OK" then
            var details := if data.errorMessage.Some? && data.errorMessage.value != "" then data.errorMessage.value else data.status;
            Handled(limited, Reply(500, Failure(FailedMessage, Some(details))), true)
          else
            ValidAddressHasKey(address.value);
            Handled(limited.(cache := CacheStore(st.cache, key, data)), Reply(200, Data(data)), true)
  }

  /**
   * Cache idempotence: once an address passes the rate check, misses the
   * cache and is answered from upstream with "OK", the next request for any
   * address with the same key never reaches upstream: it gets the identical
   * body when the limiter admits it, and 429 exactly when it does not.
   */
  lemma RepeatIsServedFromCache(
    st: GatewayState, now: int, forwardedFor: Option<string>, address: string, apiKeyPresent: bool, data: GeocodeResponse,
    now2: int, forwardedFor2: Option<string>, address2: string, apiKeyPresent2: bool, upstream2: Upstream)
    requires ValidCache(st.cache)
    requires data.status == "OK"
    requires CheckRateLimit(st.counts, ClientKey(forwardedFor), RequestLimit, WindowMs, now).allowed
    requires ValidAddress(Some(address)) && CacheKey(address) !in st.cache.entries && apiKeyPresent
    requires CacheKey(address2) == CacheKey(address)
    ensures var st2 := HandleGet(st, now, forwardedFor, Some(address), apiKeyPresent, Delivered(data)).state;
      var h2 := HandleGet(st2, now2, forwardedFor2, Some(address2), apiKeyPresent2, upstream2);
      && !h2.calledUpstream
      && (Admitted(st2, now2, forwardedFor2) ==> h2.reply == Reply(200, Data(data)))
      && (!Admitted(st2, now2, forwardedFor2) ==> h2.reply.status == 429)
  {
    var h1 := HandleGet(st, now, forwardedFor, Some(address), apiKeyPresent, Delivered(data));
    var key := CacheKey(address);
    assert h1.calledUpstream;
    assert key in h1.state.cache.entries && h1.state.cache.entries[key] == data;
    // Addresses with one key are equally long once trimmed, so both are valid.
    ValidAddressHasKey(address);
    KeyLengthIgnoresCase(address2);
    assert address2 != "";
    assert ValidAddress(Some(address2));
  }
}

=== FILE: geocode_service.dfy ===
/**
 * The client-side CEP resolver: a postal-code format gate, a lookup in the
 * public CEP directory, and, when that lookup has no coordinates, a fallback
 * through the application's own geocoding proxy with bounded retries and
 * exponential back-off. Every network reply is a parameter; the resolver
 * never fails, it answers `None`.
 */
module GeocodeService {
  import opened Wrappers
  import opened Text

  // ---------------------------------------------------------------------------
  // The CEP format gate and normalisation

  /** A CEP as the resolver accepts it: five digits, an optional hyphen, three digits. */
  predicate IsCepFormat(s: string) {
    || (|s| == 8 && AllDigits(s))
    || (|s| == 9 && AllDigits(s[..5]) && s[5] == '-' && AllDigits(s[6..]))
  }

  /** `s.replace("-", "")`: only the first hyphen goes. */
  function ReplaceFirstHyphen(s: string): (r: string)
    ensures '-' !in s ==> r == s
    ensures '-' in s ==> |r| == |s| - 1
    decreases |s|
  {
    if |s| == 0 then s
    else if s[0] == '-' then s[1..]
    else [s[0]] + ReplaceFirstHyphen(s[1..])
  }

  /** Removing the first hyphen keeps everything before it and everything after it. */
  lemma {:induction false} ReplaceFirstHyphenSplits(p: string, q: string)
    requires '-' !in p
    ensures ReplaceFirstHyphen(p + ['-'] + q) == p + q
    decreases |p|
  {
    if |p| == 0 {
      assert p + ['-'] + q == ['-'] + q;
    } else {
      assert (p + ['-'] + q)[1..] == p[1..] + ['-'] + q;
      ReplaceFirstHyphenSplits(p[1..], q);
      assert p == [p[0]] + p[1..];
    }
  }

  /**
   * Every CEP the gate lets through normalises to its eight digits: the five
   * before the optional hyphen and the three after it.
   */
  lemma NormalizedCepIsEightDigits(s: string)
    requires IsCepFormat(s)
    ensures var n := ReplaceFirstHyphen(s);
      |n| == 8 && AllDigits(n) && n == s[..5] + s[|s| - 3..]
  {
    if |s| == 9 {
      assert '-' !in s[..5] by {
        forall i | 0 <= i < 5 ensures s[..5][i] != '-' {
          assert IsDigit(s[..5][i]);
        }
      }
      assert s == s[..5] + ['-'] + s[6..];
      ReplaceFirstHyphenSplits(s[..5], s[6..]);
      var n := s[..5] + s[6..];
      forall i | 0 <= i < 8 ensures IsDigit(n[i]) {
        if i < 5 { assert n[i] == s[..5][i]; } else { assert n[i] == s[6..][i - 5]; }
      }
    } else {
      assert '-' !in s by {
        forall i | 0 <= i < |s| ensures s[i] != '-' {
          assert IsDigit(s[i]);
        }
      }
      assert s == s[..5] + s[|s| - 3..];
    }
  }

  /** The hyphenated form of eight digits. */
  function Hyphenate(d: string): string
    requires |d| == 8
  {
    d[..5] + "-" + d[5..]
  }

  /** Both spellings of a CEP pass the gate and normalise to the same digits. */
  lemma HyphenateRoundTrip(d: string)
    requires |d| == 8 && AllDigits(d)
    ensures IsCepFormat(d) && IsCepFormat(Hyphenate(d))
    ensures ReplaceFirstHyphen(d) == d
    ensures ReplaceFirstHyphen(Hyphenate(d)) == d
  {
    var h := Hyphenate(d);
    assert h[..5] == d[..5] && h[6..] == d[5..];
    assert AllDigits(h[..5]) by {
      forall i | 0 <= i < 5 ensures IsDigit(h[..5][i]) { assert h[..5][i] == d[i]; }
    }
    assert AllDigits(h[6..]) by {
      forall i | 0 <= i < 3 ensures IsDigit(h[6..][i]) { assert h[6..][i] == d[5 + i]; }
    }
    NormalizedCepIsEightDigits(d);
    NormalizedCepIsEightDigits(h);
    assert h[|h| - 3..] == d[5..];
    assert d == d[..5] + d[5..];
  }

  /** The gate accepts exactly the eight-digit CEPs, written bare or with the hyphen after the fifth digit. */
  lemma CepFormatIsEightDigitsSpelled(s: string)
    ensures IsCepFormat(s) <==> exists d :: |d| == 8 && AllDigits(d) && (s == d || s == Hyphenate(d))
  {
    if IsCepFormat(s) {
      var d := ReplaceFirstHyphen(s);
      NormalizedCepIsEightDigits(s);
      if |s| == 9 {
        assert s == Hyphenate(d);
      }
    }
    if exists d :: |d| == 8 && AllDigits(d) && (s == d || s == Hyphenate(d)) {
      var d :| |d| == 8 && AllDigits(d) && (s == d || s == Hyphenate(d));
      HyphenateRoundTrip(d);
    }
  }

  // ---------------------------------------------------------------------------
  // The CEP directory's answer and the two address formatters

  /** A coordinate as the directory sends it: text, and the number `parseFloat` reads from it. */
  datatype CoordText = CoordText(text: string, parsed: real)

  datatype Coordinates = Coordinates(latitude: Option<CoordText>, longitude: Option<CoordText>)

  datatype Location = Location(coordinates: Option<Coordinates>)

  /** The directory's record for a CEP; a field the record lacks is `None`. */
  datatype BrasilApiCep = BrasilApiCep(
    cep: Option<string>,
    state: Option<string>,
    city: Option<string>,
    neighborhood: Option<string>,
    street: Option<string>,
    location: Option<Location>)

  /**
   * What a lookup in the directory comes back with. A reply with an ok
   * status (200..299) is always a `DirectoryRecord`, its parsed body;
   * `DirectoryStatus` stands for a reply whose status is not ok.
   */
  datatype DirectoryReply =
    | DirectoryUnreachable
    | DirectoryStatus(status: nat)
    | DirectoryRecord(record: BrasilApiCep)

  datatype GeocodingResult = GeocodingResult(lat: real, lng: real, description: string)

  /** `x || ""` on an optional string. */
  function OrEmpty(o: Option<string>): string {
    o.GetOr("")
  }

  /** How a template literal prints an optional string: a missing one prints as `undefined`. */
  function Show(o: Option<string>): string {
    o.GetOr("undefined")
  }

  /** A string is truthy when it is present and not empty. */
  predicate Truthy(o: Option<string>) {
    o.Some? && o.value != ""
  }

  /** formatAddressDescription: street, neighbourhood, then "city - state". */
  function FormatAddressDescription(d: BrasilApiCep): string {
    OrEmpty(d.street) + ", " + OrEmpty(d.neighborhood) + ", " + Show(d.city) + " - " + Show(d.state)
  }

  /**
   * In the description a missing street or neighbourhood reads like an
   * empty one, while a missing city or state is spelled out as `undefined`
   * and so reads differently from an empty one.
   */
  lemma DescriptionShowsMissingParts(d: BrasilApiCep)
    ensures d.street.None? ==> FormatAddressDescription(d) == FormatAddressDescription(d.(street := Some("")))
    ensures d.neighborhood.None? ==> FormatAddressDescription(d) == FormatAddressDescription(d.(neighborhood := Some("")))
    ensures d.city.None? ==> FormatAddressDescription(d) != FormatAddressDescription(d.(city := Some("")))
    ensures d.state.None? ==> FormatAddressDescription(d) != FormatAddressDescription(d.(state := Some("")))
  {
  }

  /** formatAddressForGeocoding: the same parts followed by the CEP. */
  function FormatAddressForGeocoding(d: BrasilApiCep): (r: string)
    ensures r == FormatAddressDescription(d) + ", " + Show(d.cep)
  {
    OrEmpty(d.street) + ", " + OrEmpty(d.neighborhood) + ", " + Show(d.city) + " - " + Show(d.state) + ", " + Show(d.cep)
  }

  /** The record carries usable coordinates: both texts present and non-empty. */
  predicate HasCoordinates(d: BrasilApiCep) {
    && d.location.Some?
    && d.location.value.coordinates.Some?
    && var c := d.location.value.coordinates.value;
    && c.latitude.Some? && c.latitude.value.text != ""
    && c.longitude.Some? && c.longitude.value.text != ""
  }

  // ---------------------------------------------------------------------------
  // geocodeAddressWithGoogleAPI: the proxy call with retries

  const MaxRetries: nat := 3

  /** One result of the proxy, as far as the resolver reads it. */
  datatype ProxyResult = ProxyResult(formattedAddress: Option<string>, lat: real, lng: real)

  /** A reply of the application's geocoding proxy. */
  datatype ProxyReply =
    | NetworkError
    | Response(status: nat, results: seq<ProxyResult>)

  predicate IsOkStatus(status: nat) {
    200 <= status <= 299
  }

  /** A reply that ends the retry loop: a successful HTTP status. Everything else is retried. */
  predicate IsOkReply(r: ProxyReply) {
    r.Response? && IsOkStatus(r.status)
  }

  function Pow2(n: nat): nat {
    if n == 0 then 1 else 2 * Pow2(n - 1)
  }

  /** The wait after the `retries`-th failed attempt, in milliseconds. */
  function Backoff(retries: nat): nat {
    Pow2(retries) * 1000
  }

  /** The waits after the first `n` failed attempts: 2000, 4000, 8000, ... */
  function BackoffSchedule(n: nat): (w: seq<nat>)
    ensures |w| == n
  {
    seq(n, k requires 0 <= k < n => Backoff(k + 1))
  }

  /** What an ok reply yields: its first result, described by its formatted address or the query. */
  function ReadReply(r: ProxyReply, address: string): Option<GeocodingResult>
    requires r.Response?
  {
    if |r.results| > 0 then
      var first := r.results[0];
      Some(GeocodingResult(first.lat, first.lng, if Truthy(first.formattedAddress) then first.formattedAddress.value else address))
    else None
  }

  /** The result, how many requests were made, and the waits between them. */
  datatype RetryOutcome = RetryOutcome(result: Option<GeocodingResult>, requests: nat, waits: seq<nat>)

  /**
   * The `while` loop from the attempt numbered `retries` on. A 429 reply and
   * a failed request (non-ok status or network error) share one counter: both
   * wait 2^retries seconds and go again until the counter passes `MaxRetries`.
   * An ok reply ends the loop with its first result, or with none.
   */
  function RetryFrom(address: string, replies: nat -> ProxyReply, retries: nat): (o: RetryOutcome)
    requires retries <= MaxRetries
    ensures retries < o.requests <= MaxRetries + 1
    ensures forall k :: retries <= k < o.requests - 1 ==> !IsOkReply(replies(k))
    ensures o.requests <= MaxRetries ==> IsOkReply(replies(o.requests - 1))
    ensures o.result == (if IsOkReply(replies(o.requests - 1)) then ReadReply(replies(o.requests - 1), address) else None)
    ensures |o.waits| == o.requests - 1 - retries
    ensures forall k :: 0 <= k < |o.waits| ==> o.waits[k] == Backoff(retries + k + 1)
    decreases MaxRetries - retries
  {
    var reply := replies(retries);
    if IsOkReply(reply) then
      RetryOutcome(ReadReply(reply, address), retries + 1, [])
    else if retries < MaxRetries then
      // a 429 counts the attempt and waits; so does a failed request, in the catch block
      var rest := RetryFrom(address, replies, retries + 1);
      var waits := [Backoff(retries + 1)] + rest.waits;
      assert forall k :: 1 <= k < |waits| ==> waits[k] == rest.waits[k - 1];
      RetryOutcome(rest.result, rest.requests, waits)
    else
      // the counter has passed MaxRetries: the error is rethrown and turned into null
      RetryOutcome(None, retries + 1, [])
  }

  /**
   * geocodeAddressWithGoogleAPI: at most four requests; the loop stops at the
   * first ok reply and reads it, otherwise gives up with `None` after the
   * fourth; between requests it waits 2, 4, then 8 seconds.
   */
  function GeocodeAddressWithProxy(address: string, replies: nat -> ProxyReply): (o: RetryOutcome)
    ensures 1 <= o.requests <= MaxRetries + 1
    ensures forall k :: 0 <= k < o.requests - 1 ==> !IsOkReply(replies(k))
    ensures o.requests <= MaxRetries ==> IsOkReply(replies(o.requests - 1))
    ensures o.result.Some? ==> IsOkReply(replies(o.requests - 1)) && |replies(o.requests - 1).results| > 0
    ensures o.result == (if IsOkReply(replies(o.requests - 1)) then ReadReply(replies(o.requests - 1), address) else None)
    ensures o.waits == BackoffSchedule(o.requests - 1)
  {
    RetryFrom(address, replies, 0)
  }

  /** A proxy that keeps answering 429 is asked four times, with 2, 4 and 8 seconds between. */
  lemma PersistentRateLimitGivesUp(address: string, replies: nat -> ProxyReply)
    requires forall k :: replies(k).Response? && replies(k).status == 429
    ensures GeocodeAddressWithProxy(address, replies) == RetryOutcome(None, 4, [2000, 4000, 8000])
  {
    var o := GeocodeAddressWithProxy(address, replies);
    assert !IsOkReply(replies(o.requests - 1));
    assert Backoff(1) == 2000 && Backoff(2) == 4000 && Backoff(3) == 8000;
  }

  /** The first ok reply settles the result at once, whatever it holds. */
  lemma FirstOkReplyIsFinal(address: string, replies: nat -> ProxyReply)
    requires IsOkReply(replies(0))
    ensures GeocodeAddressWithProxy(address, replies) == RetryOutcome(ReadReply(replies(0), address), 1, [])
  {
  }

  // ---------------------------------------------------------------------------
  // fetchCepData

  /** The resolver's answer and the lookups it made on the way. */
  datatype CepLookup = CepLookup(
    result: Option<GeocodingResult>,
    directoryQuery: Option<string>,
    proxyQuery: Option<string>,
    proxyRequests: nat)

  /**
   * fetchCepData: reject anything but a CEP; look the hyphen-free CEP up in
   * the directory; use the directory's coordinates when it has both, and
   * geocode the formatted address through the proxy when it has not. An
   * unreachable directory or a `DirectoryStatus` reply (a non-ok status)
   * gives `None`.
   */
  function FetchCepData(cep: string, directory: string -> DirectoryReply, replies: nat -> ProxyReply): (l: CepLookup)
    ensures !IsCepFormat(cep) <==> l.directoryQuery.None?
    ensures !IsCepFormat(cep) ==> l == CepLookup(None, None, None, 0)
    ensures l.directoryQuery.Some? ==>
      var q := l.directoryQuery.value;
      |q| == 8 && AllDigits(q) && q == cep[..5] + cep[|cep| - 3..]
    ensures l.result.Some? ==> l.directoryQuery.Some? && directory(l.directoryQuery.value).DirectoryRecord?
    ensures l.proxyQuery.Some? <==>
      && l.directoryQuery.Some?
      && directory(l.directoryQuery.value).DirectoryRecord?
      && !HasCoordinates(directory(l.directoryQuery.value).record)
    ensures l.proxyQuery.Some? ==>
      var d := directory(l.directoryQuery.value).record;
      && l.proxyQuery.value == FormatAddressForGeocoding(d)
      && l.result == GeocodeAddressWithProxy(l.proxyQuery.value, replies).result
      && 1 <= l.proxyRequests <= MaxRetries + 1
    ensures l.proxyQuery.None? ==> l.proxyRequests == 0
    ensures l.directoryQuery.Some? && directory(l.directoryQuery.value).DirectoryRecord?
              && HasCoordinates(directory(l.directoryQuery.value).record) ==>
      var d := directory(l.directoryQuery.value).record;
      var c := d.location.value.coordinates.value;
      l.result == Some(GeocodingResult(c.latitude.value.parsed, c.longitude.value.parsed, FormatAddressDescription(d)))
  {
    if !IsCepFormat(cep) then CepLookup(None, None, None, 0)
    else
      var normalized := ReplaceFirstHyphen(cep);
      NormalizedCepIsEightDigits(cep);
      match directory(normalized)
      case DirectoryUnreachable => CepLookup(None, Some(normalized), None, 0)
      case DirectoryStatus(_) => CepLookup(None, Some(normalized), None, 0)
      case DirectoryRecord(d) =>
        if HasCoordinates(d) then
          var c := d.location.value.coordinates.value;
          CepLookup(Some(GeocodingResult(c.latitude.value.parsed, c.longitude.value.parsed, FormatAddressDescription(d))),
                    Some(normalized), None, 0)
        else
          var address := FormatAddressForGeocoding(d);
          var o := GeocodeAddressWithProxy(address, replies);
          CepLookup(o.result, Some(normalized), Some(address), o.requests)
  }

  /**
   * fetchCepData as its callers see it: a CEP in, coordinates or `None` out.
   * Callers receive it as a parameter, since each call meets its own replies.
   */
  type Resolver = string -> Option<GeocodingResult>

  /** The two spellings of a CEP resolve identically. */
  lemma HyphenDoesNotMatter(d: string, directory: string -> DirectoryReply, replies: nat -> ProxyReply)
    requires |d| == 8 && AllDigits(d)
    ensures FetchCepData(Hyphenate(d), directory, replies) == FetchCepData(d, directory, replies)
  {
    HyphenateRoundTrip(d);
  }
}

=== FILE: import_wizard.dfy ===
/**
 * The import wizard: CEPs typed as free text or read from a spreadsheet are
 * normalised to their digits, resolved one at a time, and collected into one
 * result per token or row, in order. Successful results carry a route
 * address numbered by its position among the results.
 */
module ImportWizard {
  import opened Wrappers
  import opened Text
  import opened RouteManager
  import opened GeocodeService

  // ---------------------------------------------------------------------------
  // Splitting the typed text into CEP tokens

  /** The separators the free-text box accepts between CEPs. */
  predicate IsSeparator(c: char) {
    c == '\n' || c == ',' || c == ';'
  }

  predicate NoSeparator(s: string) {
    forall j :: 0 <= j < |s| ==> !IsSeparator(s[j])
  }

  /** `text.split(/[\n,;]/)`: the pieces between separators, empty pieces included. */
  function SplitFields(s: string): (r: seq<string>)
    ensures |r| >= 1
    ensures forall i :: 0 <= i < |r| ==> NoSeparator(r[i])
    decreases |s|
  {
    if |s| == 0 then [""]
    else
      var rest := SplitFields(s[1..]);
      if IsSeparator(s[0]) then [""] + rest
      else [[s[0]] + rest[0]] + rest[1..]
  }

  /** The fields written one after another, `seps[i]` between field i and field i+1. */
  function Join(fields: seq<string>, seps: string): string
    requires |fields| == 0 || |seps| == |fields| - 1
    decreases |fields|
  {
    if |fields| == 0 then ""
    else if |fields| == 1 then fields[0]
    else fields[0] + [seps[0]] + Join(fields[1..], seps[1..])
  }

  /** Every character of `seps` is one of the separators, in any mixture. */
  predicate AllSeparators(seps: string) {
    forall j :: 0 <= j < |seps| ==> IsSeparator(seps[j])
  }

  /** A field free of separators comes back whole, followed by whatever follows its separator. */
  lemma {:induction false} SplitFieldThenRest(f: string, sep: char, rest: string)
    requires NoSeparator(f) && IsSeparator(sep)
    ensures SplitFields(f + [sep] + rest) == [f] + SplitFields(rest)
    decreases |f|
  {
    var s := f + [sep] + rest;
    if |f| == 0 {
      assert s == [sep] + rest;
      assert s[1..] == rest;
    } else {
      assert s[1..] == f[1..] + [sep] + rest;
      SplitFieldThenRest(f[1..], sep, rest);
      assert f == [f[0]] + f[1..];
    }
  }

  /** A field free of separators splits into itself. */
  lemma {:induction false} SplitSingleField(f: string)
    requires NoSeparator(f)
    ensures SplitFields(f) == [f]
    decreases |f|
  {
    if |f| > 0 {
      SplitSingleField(f[1..]);
      assert f == [f[0]] + f[1..];
    }
  }

  /** Splitting undoes joining, for fields that hold no separator, whichever separators join them. */
  lemma {:induction false} SplitJoinRoundTrip(fields: seq<string>, seps: string)
    requires |fields| > 0 && |seps| == |fields| - 1 && AllSeparators(seps)
    requires forall i :: 0 <= i < |fields| ==> NoSeparator(fields[i])
    ensures SplitFields(Join(fields, seps)) == fields
    decreases |fields|
  {
    if |fields| == 1 {
      SplitSingleField(fields[0]);
    } else {
      SplitJoinRoundTrip(fields[1..], seps[1..]);
      SplitFieldThenRest(fields[0], seps[0], Join(fields[1..], seps[1..]));
      assert fields == [fields[0]] + fields[1..];
    }
  }

  /** Text that mixes the separators splits at each of them. */
  lemma MixedSeparatorsSplit()
    ensures SplitFields("a,b;c\nd") == ["a", "b", "c", "d"]
  {
    SplitJoinRoundTrip(["a", "b", "c", "d"], ",;\n");
    assert Join(["a", "b", "c", "d"], ",;\n") == "a,b;c\nd";
  }

  /** A token with no white space at either end, and not empty. */
  predicate IsTrimmedToken(t: string) {
    |t| > 0 && !IsSpace(t[0]) && !IsSpace(t[|t| - 1])
  }

  /**
   * `.map(trim).filter(non-empty)` over the split pieces. One piece gives
   * its trimmed text, or nothing when that is empty; with
   * TrimNonEmptyConcat this fixes the result for every list of pieces.
   */
  function TrimNonEmpty(fields: seq<string>): (r: seq<string>)
    ensures |r| <= |fields|
    ensures forall i :: 0 <= i < |r| ==> IsTrimmedToken(r[i])
    ensures |fields| == 1 ==> r == (if |Trim(fields[0])| > 0 then [Trim(fields[0])] else [])
    decreases |fields|
  {
    if |fields| == 0 then []
    else
      var t := Trim(fields[0]);
      var rest := TrimNonEmpty(fields[1..]);
      if |t| > 0 then [t] + rest else rest
  }

  /** Trimming and dropping empties works piece by piece: no token is lost, moved or invented. */
  lemma {:induction false} TrimNonEmptyConcat(a: seq<string>, b: seq<string>)
    ensures TrimNonEmpty(a + b) == TrimNonEmpty(a) + TrimNonEmpty(b)
    decreases |a|
  {
    if |a| == 0 {
      assert a + b == b;
    } else {
      assert (a + b)[0] == a[0];
      assert (a + b)[1..] == a[1..] + b;
      TrimNonEmptyConcat(a[1..], b);
    }
  }

  /** The CEP list processManualCeps works through. */
  function ManualTokens(text: string): seq<string> {
    TrimNonEmpty(SplitFields(text))
  }

  /** A token that is already trimmed and not empty. */
  predicate IsCleanToken(t: string) {
    IsTrimmedToken(t) && NoSeparator(t)
  }

  lemma CleanTokenIsTrimmed(t: string)
    requires IsCleanToken(t)
    ensures Trim(t) == t
  {
    assert TrimStart(t) == t;
  }

  /** Every token of the list is clean. */
  predicate AllClean(ts: seq<string>) {
    forall i :: 0 <= i < |ts| ==> IsCleanToken(ts[i])
  }

  /** A piece that trims to something non-empty contributes its trimmed text first. */
  lemma TrimNonEmptyCons(t: string, rest: seq<string>)
    requires |Trim(t)| > 0
    ensures TrimNonEmpty([t] + rest) == [Trim(t)] + TrimNonEmpty(rest)
  {
    assert ([t] + rest)[0] == t && ([t] + rest)[1..] == rest;
  }

  /** A clean list splits into a clean head and a clean tail. */
  lemma AllCleanSplits(ts: seq<string>)
    requires AllClean(ts) && |ts| > 0
    ensures IsCleanToken(ts[0]) && AllClean(ts[1..])
  {
    assert forall i :: 0 <= i < |ts| - 1 ==> ts[1..][i] == ts[i + 1];
  }

  /** A clean head is kept as it is in front of whatever the tail gives. */
  lemma TrimNonEmptyCleanHead(ts: seq<string>)
    requires |ts| > 0 && IsCleanToken(ts[0])
    ensures TrimNonEmpty(ts) == [ts[0]] + TrimNonEmpty(ts[1..])
  {
    CleanTokenIsTrimmed(ts[0]);
    assert ts == [ts[0]] + ts[1..];
    TrimNonEmptyCons(ts[0], ts[1..]);
  }

  lemma {:induction false} TrimNonEmptyKeepsClean(ts: seq<string>)
    requires AllClean(ts)
    ensures TrimNonEmpty(ts) == ts
    decreases |ts|
  {
    if |ts| > 0 {
      AllCleanSplits(ts);
      TrimNonEmptyKeepsClean(ts[1..]);
      TrimNonEmptyCleanHead(ts);
      assert ts == [ts[0]] + ts[1..];
    }
  }



  /**
   * Clean CEPs written one after another, with any mixture of the
   * separators between them, come back as exactly that list; the empty
   * text gives no tokens.
   */
  lemma ManualTokensRoundTrip(ceps: seq<string>, seps: string)
    requires |ceps| == 0 || (|seps| == |ceps| - 1 && AllSeparators(seps))
    requires AllClean(ceps)
    ensures ManualTokens(Join(ceps, seps)) == ceps
  {
    if |ceps| == 0 {
      assert SplitFields("") == [""];
      assert Trim("") == "";
    } else {
      SplitJoinRoundTrip(ceps, seps);
      TrimNonEmptyKeepsClean(ceps);
    }
  }

  // ---------------------------------------------------------------------------
  // Guessing the spreadsheet's columns from its headers

  /** A header that names the CEP column: it mentions cep, postal or zip, in any case. */
  predicate IsCepHeader(h: string) {
    var l := ToLower(h);
    Contains(l, "cep") || Contains(l, "postal") || Contains(l, "zip")
  }

  /** A header that names a description column: it mentions desc, end, address or local, in any case. */
  predicate IsDescriptionHeader(h: string) {
    var l := ToLower(h);
    Contains(l, "desc") || Contains(l, "end") || Contains(l, "address") || Contains(l, "local")
  }

  /** The first header, from position `from` on, that `p` accepts. */
  function FirstMatch(headers: seq<string>, p: string -> bool, from: nat): (r: Option<nat>)
    requires from <= |headers|
    ensures r.Some? ==> from <= r.value < |headers| && p(headers[r.value])
    ensures r.Some? ==> forall j :: from <= j < r.value ==> !p(headers[j])
    ensures r.None? ==> forall j :: from <= j < |headers| ==> !p(headers[j])
    decreases |headers| - from
  {
    if from == |headers| then None
    else if p(headers[from]) then Some(from)
    else FirstMatch(headers, p, from + 1)
  }

  /**
   * The column guess made when a file is chosen: the first CEP-like header
   * becomes the CEP column and the first description-like header the
   * description column; where no header qualifies the earlier choice stays.
   */
  function AutoDetectColumns(prev: ColumnMapping, headers: seq<string>): (m: ColumnMapping)
    ensures (exists j :: 0 <= j < |headers| && IsCepHeader(headers[j])) ==>
      exists k :: 0 <= k < |headers| && m.cep == headers[k] && IsCepHeader(headers[k])
        && forall j :: 0 <= j < k ==> !IsCepHeader(headers[j])
    ensures (forall j :: 0 <= j < |headers| ==> !IsCepHeader(headers[j])) ==> m.cep == prev.cep
    ensures (exists j :: 0 <= j < |headers| && IsDescriptionHeader(headers[j])) ==>
      exists k :: 0 <= k < |headers| && m.description == Some(headers[k]) && IsDescriptionHeader(headers[k])
        && forall j :: 0 <= j < k ==> !IsDescriptionHeader(headers[j])
    ensures (forall j :: 0 <= j < |headers| ==> !IsDescriptionHeader(headers[j])) ==> m.description == prev.description
  {
    var cepColumn := FirstMatch(headers, IsCepHeader, 0);
    var descColumn := FirstMatch(headers, IsDescriptionHeader, 0);
    var withCep := if cepColumn.Some? then prev.(cep := headers[cepColumn.value]) else prev;
    if descColumn.Some? then withCep.(description := Some(headers[descColumn.value])) else withCep
  }

  /** Both header tests read the lower-cased header. */
  lemma HeaderByLower(h: string, l: string)
    requires ToLower(h) == l
    ensures IsCepHeader(h) <==> Contains(l, "cep") || Contains(l, "postal") || Contains(l, "zip")
    ensures IsDescriptionHeader(h) <==> Contains(l, "desc") || Contains(l, "end") || Contains(l, "address") || Contains(l, "local")
  {
  }

  lemma NamePatterns(l: string)
    requires l == "nome"
    ensures !Contains(l, "cep") && !Contains(l, "postal") && !Contains(l, "zip")
    ensures !Contains(l, "desc") && !Contains(l, "end") && !Contains(l, "address") && !Contains(l, "local")
  {
    AbsentInitial(l, "cep");
    AbsentInitial(l, "postal");
    AbsentInitial(l, "zip");
    AbsentInitial(l, "desc");
    NoRoomForPattern(l, "end");
    AbsentInitial(l, "address");
    AbsentInitial(l, "local");
  }

  lemma NameHeaderIsNeither(h: string)
    requires h == "Nome"
    ensures !IsCepHeader(h) && !IsDescriptionHeader(h)
  {
    var l := "nome";
    assert ToLower(h) == l;
    HeaderByLower(h, l);
    NamePatterns(l);
  }

  lemma AddressPatterns(l: string)
    requires l == "endere\U{E7}o"
    ensures Contains(l, "end") && !Contains(l, "cep") && !Contains(l, "postal") && !Contains(l, "zip")
  {
    assert StartsWith(l, "end");
    AbsentInitial(l, "cep");
    AbsentInitial(l, "postal");
    AbsentInitial(l, "zip");
  }

  lemma AddressHeaderIsDescription(h: string)
    requires h == "Endere\U{E7}o"
    ensures !IsCepHeader(h) && IsDescriptionHeader(h)
  {
    var l := "endere\U{E7}o";
    assert ToLower(h) == l;
    HeaderByLower(h, l);
    AddressPatterns(l);
  }

  lemma CepHeaderIsCep(h: string)
    requires h == "CEP"
    ensures IsCepHeader(h)
  {
    assert ToLower(h) == "cep";
  }

  /** A typical Brazilian sheet: "Nome", "Endereço", "CEP" maps CEP and Endereço. */
  lemma TypicalHeadersAreDetected(headers: seq<string>)
    requires headers == ["Nome", "Endere\U{E7}o", "CEP"]
    ensures AutoDetectColumns(ColumnMapping("", None), headers) == ColumnMapping("CEP", Some("Endere\U{E7}o"))
  {
    NameHeaderIsNeither(headers[0]);
    AddressHeaderIsDescription(headers[1]);
    CepHeaderIsCep(headers[2]);
    assert FirstMatch(headers, IsCepHeader, 2) == Some(2);
    assert FirstMatch(headers, IsCepHeader, 1) == Some(2);
    assert FirstMatch(headers, IsCepHeader, 0) == Some(2);
    assert FirstMatch(headers, IsDescriptionHeader, 1) == Some(1);
    assert FirstMatch(headers, IsDescriptionHeader, 0) == Some(1);
  }

  // ---------------------------------------------------------------------------
  // One result per token or row

  datatype ImportStatus = Success | Error

  datatype ImportEntry = ImportEntry(cep: string, description: Option<string>, status: ImportStatus, data: Option<RouteAddress>)

  /** The CEP of a result, once its non-digits are deleted, is exactly eight digits. */
  predicate IsImportableCep(cep: string) {
    |DigitsOnly(cep)| == 8
  }

  /** A unique key for an imported stop: the CEP and the clock reading plus the result's position. */
  function ImportedId(cep: string, now: nat, position: nat): string {
    cep + "-" + NatToString(now + position)
  }

  /** The stop an import creates from a resolved CEP at `position`. */
  function ImportedAddress(cep: string, description: string, loc: GeocodingResult, now: nat, position: nat): (a: RouteAddress)
    ensures a.deliveryOrder == Some(position + 1) && a.isGeocoded && !a.isChecked
    ensures a.lat == loc.lat && a.lng == loc.lng && a.description == description
  {
    RouteAddress(ImportedId(cep, now, position), description, loc.lat, loc.lng, true, Some(position + 1), false)
  }

  /**
   * One typed token at `position`: an error carrying the token when it does
   * not reduce to eight digits, an error carrying the digits when the
   * resolver finds nothing, otherwise a success whose stop is numbered
   * `position + 1`.
   */
  function ManualEntry(raw: string, position: nat, resolve: Resolver, now: nat): (e: ImportEntry)
    ensures e.description.None?
    ensures e.status == Success <==> IsImportableCep(raw) && resolve(DigitsOnly(raw)).Some?
    ensures e.status == Success <==> e.data.Some?
    ensures e.cep == if IsImportableCep(raw) then DigitsOnly(raw) else raw
    ensures e.data.Some? ==>
      var loc := resolve(e.cep).value;
      e.data.value == ImportedAddress(e.cep, loc.description, loc, now, position)
  {
    var cep := DigitsOnly(raw);
    if |cep| != 8 then ImportEntry(raw, None, Error, None)
    else
      match resolve(cep)
      case None => ImportEntry(cep, None, Error, None)
      case Some(loc) => ImportEntry(cep, None, Success, Some(ImportedAddress(cep, loc.description, loc, now, position)))
  }

  /** The placeholder shown for a row without a CEP cell (the app's text, mis-encoded as it is there). */
  const InvalidPlaceholder := "Inv\U{C3}\U{A1}lido"

  /** A spreadsheet row: column name to cell text. */
  type CsvRow = map<string, string>

  /** Which column holds the CEP, and which, if any, the description. */
  datatype ColumnMapping = ColumnMapping(cep: string, description: Option<string>)

  /** The trimmed CEP cell, when the row has one. */
  function RawCep(row: CsvRow, mapping: ColumnMapping): Option<string> {
    if mapping.cep in row then Some(Trim(row[mapping.cep])) else None
  }

  /** The trimmed description cell, when a description column is chosen and the row has it. */
  function RowDescription(row: CsvRow, mapping: ColumnMapping): Option<string> {
    if Truthy(mapping.description) && mapping.description.value in row then Some(Trim(row[mapping.description.value]))
    else None
  }

  /**
   * One spreadsheet row at `position`: like a typed token, except that the
   * row's own description, when not empty, is preferred to the resolver's,
   * and a row without a CEP cell shows the placeholder.
   */
  function CsvEntry(row: CsvRow, mapping: ColumnMapping, position: nat, resolve: Resolver, now: nat): (e: ImportEntry)
    ensures var raw := RawCep(row, mapping);
      e.status == Success <==> raw.Some? && IsImportableCep(raw.value) && resolve(DigitsOnly(raw.value)).Some?
    ensures e.status == Success <==> e.data.Some?
    ensures RawCep(row, mapping).None? ==> e.cep == InvalidPlaceholder
    ensures RawCep(row, mapping).Some? ==>
      var raw := RawCep(row, mapping).value;
      e.cep == if IsImportableCep(raw) then DigitsOnly(raw) else raw
    ensures e.status == Error ==> e.description == RowDescription(row, mapping)
    ensures e.data.Some? ==>
      && RawCep(row, mapping).Some?
      && e.cep == DigitsOnly(RawCep(row, mapping).value)
      && resolve(e.cep).Some?
      && var loc := resolve(e.cep).value;
      var given := RowDescription(row, mapping);
      var description := if Truthy(given) then given.value else loc.description;
      && e.description == Some(description)
      && e.data.value == ImportedAddress(e.cep, description, loc, now, position)
  {
    var raw := RawCep(row, mapping);
    var description := RowDescription(row, mapping);
    if raw.None? || |DigitsOnly(raw.value)| != 8 then
      ImportEntry(raw.GetOr(InvalidPlaceholder), description, Error, None)
    else
      var cep := DigitsOnly(raw.value);
      match resolve(cep)
      case None => ImportEntry(cep, description, Error, None)
      case Some(loc) =>
        var chosen := if Truthy(description) then description.value else loc.description;
        ImportEntry(cep, Some(chosen), Success, Some(ImportedAddress(cep, chosen, loc, now, position)))
  }

  /**
   * A row with a CEP cell is imported as the same text typed by hand would
   * be: same cep and status, the same stop unless the row's own description
   * replaces the resolver's, and, when no description cell is read, the
   * same entry apart from the description shown in the preview.
   */
  lemma CsvEntryIsManualEntry(row: CsvRow, mapping: ColumnMapping, position: nat, resolve: Resolver, now: nat)
    requires RawCep(row, mapping).Some?
    ensures var e := CsvEntry(row, mapping, position, resolve, now);
      var m := ManualEntry(RawCep(row, mapping).value, position, resolve, now);
      && e.cep == m.cep
      && e.status == m.status
      && (!Truthy(RowDescription(row, mapping)) ==> e.data == m.data)
      && (RowDescription(row, mapping).None? ==> e.(description := None) == m)
  {
  }

  // ---------------------------------------------------------------------------
  // Counting successes

  /** getSuccessCount: how many results are successes. */
  function SuccessCount(results: seq<ImportEntry>): (n: nat)
    ensures n <= |results|
    decreases |results|
  {
    if |results| == 0 then 0
    else SuccessCount(results[..|results| - 1]) + (if results[|results| - 1].status == Success then 1 else 0)
  }

  /** Whether any result succeeded. */
  predicate SomeSuccess(results: seq<ImportEntry>) {
    exists i :: 0 <= i < |results| && results[i].status == Success
  }

  /** Whether every result succeeded. */
  predicate AllSucceeded(results: seq<ImportEntry>) {
    forall i :: 0 <= i < |results| ==> results[i].status == Success
  }

  /** The count is zero exactly when nothing succeeded, and full exactly when everything did. */
  lemma {:induction false} SuccessCountExtremes(results: seq<ImportEntry>)
    ensures SuccessCount(results) == 0 <==> !SomeSuccess(results)
    ensures SuccessCount(results) == |results| <==> AllSucceeded(results)
    decreases |results|
  {
    if |results| > 0 {
      var init := results[..|results| - 1];
      SuccessCountExtremes(init);
      assert forall i :: 0 <= i < |init| ==> init[i] == results[i];
      if SomeSuccess(init) {
        var i :| 0 <= i < |init| && init[i].status == Success;
        assert results[i].status == Success;
      }
    }
  }


  /** How many typed tokens reduce to eight digits the resolver can place. */
  function ResolvableCount(tokens: seq<string>, resolve: Resolver): nat
    decreases |tokens|
  {
    if |tokens| == 0 then 0
    else
      var last := tokens[|tokens| - 1];
      ResolvableCount(tokens[..|tokens| - 1], resolve)
        + (if IsImportableCep(last) && resolve(DigitsOnly(last)).Some? then 1 else 0)
  }

  /** `results` are the entries of a manual import of `tokens`, one per token at its own position. */
  predicate ManualResults(tokens: seq<string>, resolve: Resolver, clock: nat -> nat, results: seq<ImportEntry>) {
    |results| == |tokens| && forall k :: 0 <= k < |results| ==> results[k] == ManualEntry(tokens[k], k, resolve, clock(k))
  }

  /** Each result succeeds exactly when its token reduces to eight digits the resolver can place. */
  predicate StatusesMatch(tokens: seq<string>, resolve: Resolver, results: seq<ImportEntry>) {
    && |results| == |tokens|
    && forall k :: 0 <= k < |results| ==>
      (results[k].status == Success <==> IsImportableCep(tokens[k]) && resolve(DigitsOnly(tokens[k])).Some?)
  }

  /** A manual import's statuses match its tokens. */
  lemma ManualStatusesMatch(tokens: seq<string>, resolve: Resolver, clock: nat -> nat, results: seq<ImportEntry>)
    requires ManualResults(tokens, resolve, clock, results)
    ensures StatusesMatch(tokens, resolve, results)
  {
    forall k | 0 <= k < |results|
      ensures results[k].status == Success <==> IsImportableCep(tokens[k]) && resolve(DigitsOnly(tokens[k])).Some?
    {
      assert results[k] == ManualEntry(tokens[k], k, resolve, clock(k));
    }
  }

  lemma StatusesMatchPrefix(tokens: seq<string>, resolve: Resolver, results: seq<ImportEntry>, n: nat)
    requires StatusesMatch(tokens, resolve, results) && n <= |tokens|
    ensures StatusesMatch(tokens[..n], resolve, results[..n])
  {
    assert forall k :: 0 <= k < n ==> results[..n][k] == results[k] && tokens[..n][k] == tokens[k];
  }

  /** Both counts grow together when the last result succeeds exactly when its token resolves. */
  lemma SuccessCountStep(tokens: seq<string>, resolve: Resolver, results: seq<ImportEntry>)
    requires |results| == |tokens| > 0
    requires SuccessCount(results[..|results| - 1]) == ResolvableCount(tokens[..|tokens| - 1], resolve)
    requires var n := |tokens| - 1;
      results[n].status == Success <==> IsImportableCep(tokens[n]) && resolve(DigitsOnly(tokens[n])).Some?
    ensures SuccessCount(results) == ResolvableCount(tokens, resolve)
  {
  }

  /** Results whose statuses match their tokens count as many successes as there are resolvable tokens. */
  lemma {:induction false} MatchingStatusesCount(tokens: seq<string>, resolve: Resolver, results: seq<ImportEntry>)
    requires StatusesMatch(tokens, resolve, results)
    ensures SuccessCount(results) == ResolvableCount(tokens, resolve)
    decreases |tokens|
  {
    if |tokens| > 0 {
      var n := |tokens| - 1;
      StatusesMatchPrefix(tokens, resolve, results, n);
      MatchingStatusesCount(tokens[..n], resolve, results[..n]);
      SuccessCountStep(tokens, resolve, results);
    }
  }

  /**
   * getSuccessCount after a manual import: the successes are exactly the
   * tokens that reduce to eight digits the resolver can place.
   */
  lemma ManualSuccessCount(tokens: seq<string>, resolve: Resolver, clock: nat -> nat, results: seq<ImportEntry>)
    requires ManualResults(tokens, resolve, clock, results)
    ensures SuccessCount(results) == ResolvableCount(tokens, resolve)
  {
    ManualStatusesMatch(tokens, resolve, clock, results);
    MatchingStatusesCount(tokens, resolve, results);
  }

  /**
   * processManualCeps: one result per token, in order, each the token's
   * entry at its own position with the clock as read at that step.
   */
  method ProcessManualCeps(manualCeps: string, resolve: Resolver, clock: nat -> nat) returns (results: seq<ImportEntry>)
    ensures |results| == |ManualTokens(manualCeps)|
    ensures forall i :: 0 <= i < |results| ==> results[i] == ManualEntry(ManualTokens(manualCeps)[i], i, resolve, clock(i))
    ensures SuccessCount(results) == ResolvableCount(ManualTokens(manualCeps), resolve)
  {
    var cepList := ManualTokens(manualCeps);
    results := ProcessTokens(cepList, resolve, clock);
  }

  /** The loop of processManualCeps over the token list. */
  method ProcessTokens(cepList: seq<string>, resolve: Resolver, clock: nat -> nat) returns (results: seq<ImportEntry>)
    ensures |results| == |cepList|
    ensures forall i :: 0 <= i < |results| ==> results[i] == ManualEntry(cepList[i], i, resolve, clock(i))
    ensures SuccessCount(results) == ResolvableCount(cepList, resolve)
  {
    results := [];
    var i := 0;
    while i < |cepList|
      invariant 0 <= i <= |cepList| && |results| == i
      invariant forall k :: 0 <= k < i ==> results[k] == ManualEntry(cepList[k], k, resolve, clock(k))
    {
      var rawCep := cepList[i];
      var cep := DigitsOnly(rawCep);
      var entry;
      if |cep| != 8 {
        entry := ImportEntry(rawCep, None, Error, None);
      } else {
        var location := resolve(cep);
        if location.Some? {
          var loc := location.value;
          entry := ImportEntry(cep, None, Success, Some(ImportedAddress(cep, loc.description, loc, clock(i), |results|)));
        } else {
          entry := ImportEntry(cep, None, Error, None);
        }
      }
      results := results + [entry];
      i := i + 1;
    }
    assert ManualResults(cepList, resolve, clock, results);
    ManualSuccessCount(cepList, resolve, clock, results);
  }

  /**
   * processCsv: one result per row, in order, each the row's entry at its
   * own position with the clock as read at that step.
   */
  method ProcessCsv(rows: seq<CsvRow>, mapping: ColumnMapping, resolve: Resolver, clock: nat -> nat) returns (results: seq<ImportEntry>)
    ensures |results| == |rows|
    ensures forall i :: 0 <= i < |results| ==> results[i] == CsvEntry(rows[i], mapping, i, resolve, clock(i))
  {
    results := [];
    var i := 0;
    while i < |rows|
      invariant 0 <= i <= |rows| && |results| == i
      invariant forall k :: 0 <= k < i ==> results[k] == CsvEntry(rows[k], mapping, k, resolve, clock(k))
    {
      var rawCep := RawCep(rows[i], mapping);
      var description := RowDescription(rows[i], mapping);
      var entry;
      if rawCep.None? || |DigitsOnly(rawCep.value)| != 8 {
        entry := ImportEntry(rawCep.GetOr(InvalidPlaceholder), description, Error, None);
      } else {
        var cep := DigitsOnly(rawCep.value);
        var location := resolve(cep);
        if location.Some? {
          var loc := location.value;
          var chosen := if Truthy(description) then description.value else loc.description;
          entry := ImportEntry(cep, Some(chosen), Success, Some(ImportedAddress(cep, chosen, loc, clock(i), |results|)));
        } else {
          entry := ImportEntry(cep, description, Error, None);
        }
      }
      results := results + [entry];
      i := i + 1;
    }
  }

  // ---------------------------------------------------------------------------
  // Handing the imported stops to the planner

  /** handleConfirm: the stops of the successful results, in result order. */
  function ImportedAddresses(results: seq<ImportEntry>): (r: seq<RouteAddress>)
    ensures |r| <= |results|
    decreases |results|
  {
    if |results| == 0 then []
    else
      var last := results[|results| - 1];
      ImportedAddresses(results[..|results| - 1]) + (if last.status == Success && last.data.Some? then [last.data.value] else [])
  }

  /** The stop a successful result carries. */
  predicate CarriesStop(results: seq<ImportEntry>, i: int, a: RouteAddress) {
    0 <= i < |results| && results[i].status == Success && results[i].data == Some(a)
  }

  /** The planner receives the stop of every success and nothing else. */
  lemma {:induction false} ImportedAddressesAreSuccessStops(results: seq<ImportEntry>)
    ensures forall i :: 0 <= i < |results| && results[i].status == Success && results[i].data.Some? ==>
      results[i].data.value in ImportedAddresses(results)
    ensures forall a :: a in ImportedAddresses(results) ==> exists i :: CarriesStop(results, i, a)
    decreases |results|
  {
    if |results| > 0 {
      var init := results[..|results| - 1];
      var last := results[|results| - 1];
      ImportedAddressesAreSuccessStops(init);
      assert forall i :: 0 <= i < |init| ==> init[i] == results[i];
      var r0 := ImportedAddresses(init);
      assert ImportedAddresses(results) == r0 + (if last.status == Success && last.data.Some? then [last.data.value] else []);
      forall a | a in ImportedAddresses(results) ensures exists i :: CarriesStop(results, i, a) {
        if a in r0 {
          var i :| CarriesStop(init, i, a);
          assert CarriesStop(results, i, a);
        } else {
          assert CarriesStop(results, |results| - 1, a);
        }
      }
    }
  }


  /** Every stop a result at position i carries is numbered i + 1. */
  predicate NumberedByPosition(results: seq<ImportEntry>) {
    forall i :: 0 <= i < |results| && results[i].data.Some? ==> results[i].data.value.deliveryOrder == Some(i + 1)
  }

  /** Every stop of `r` is numbered within 1..n, and the numbers strictly increase along `r`. */
  predicate NumberedIncreasingWithin(r: seq<RouteAddress>, n: nat) {
    && (forall i :: 0 <= i < |r| ==> r[i].deliveryOrder.Some? && 1 <= r[i].deliveryOrder.value <= n)
    && (forall i, j :: 0 <= i < j < |r| ==> r[i].deliveryOrder.value < r[j].deliveryOrder.value)
  }

  /** The numbers of the imported stops lie in 1..|results| and strictly increase. */
  lemma {:induction false} ImportedOrdersIncrease(results: seq<ImportEntry>)
    requires NumberedByPosition(results)
    ensures NumberedIncreasingWithin(ImportedAddresses(results), |results|)
    decreases |results|
  {
    if |results| > 0 {
      var init := results[..|results| - 1];
      assert NumberedByPosition(init) by {
        forall i | 0 <= i < |init| && init[i].data.Some? ensures init[i].data.value.deliveryOrder == Some(i + 1) {
          assert init[i] == results[i];
        }
      }
      ImportedOrdersIncrease(init);
      var r0 := ImportedAddresses(init);
      var last := results[|results| - 1];
      var r := ImportedAddresses(results);
      assert r == r0 + (if last.status == Success && last.data.Some? then [last.data.value] else []);
      assert forall i :: 0 <= i < |r0| ==> r[i] == r0[i];
      assert |r| > |r0| ==> r[|r0|] == last.data.value && last.data.value.deliveryOrder == Some(|results|);
    }
  }

  /**
   * Successes and imported stops match one for one when every success, and
   * only a success, carries a stop.
   */
  lemma {:induction false} ImportedCountIsSuccessCount(results: seq<ImportEntry>)
    requires forall i :: 0 <= i < |results| ==> (results[i].status == Success <==> results[i].data.Some?)
    ensures |ImportedAddresses(results)| == SuccessCount(results)
    decreases |results|
  {
    if |results| > 0 {
      var init := results[..|results| - 1];
      assert forall i :: 0 <= i < |init| ==> init[i] == results[i];
      ImportedCountIsSuccessCount(init);
    }
  }

  /**
   * The planner receives the imported stops already in delivery order:
   * sorting them by their numbers leaves them where they are.
   */
  lemma ImportedStopsAreInDeliveryOrder(results: seq<ImportEntry>)
    requires NumberedByPosition(results)
    ensures SortedByOrder(ImportedAddresses(results))
    ensures SortByDeliveryOrder(ImportedAddresses(results)) == ImportedAddresses(results)
  {
    var r := ImportedAddresses(results);
    ImportedOrdersIncrease(results);
    assert SortedByOrder(r) by {
      forall i, j | 0 <= i < j < |r| ensures Precedes(r[i], r[j]) {
        assert r[i].deliveryOrder.value < r[j].deliveryOrder.value;
      }
    }
    StableSortIsUnique(r, r);
  }

  /** The results processManualCeps produces hand over one stop per success, numbered by position. */
  lemma ManualImportIsNumbered(tokens: seq<string>, resolve: Resolver, clock: nat -> nat, results: seq<ImportEntry>)
    requires |results| == |tokens|
    requires forall i :: 0 <= i < |results| ==> results[i] == ManualEntry(tokens[i], i, resolve, clock(i))
    ensures NumberedByPosition(results)
    ensures |ImportedAddresses(results)| == SuccessCount(results)
  {
    ImportedCountIsSuccessCount(results);
  }

  /** The results processCsv produces hand over one stop per success, numbered by position. */
  lemma CsvImportIsNumbered(rows: seq<CsvRow>, mapping: ColumnMapping, resolve: Resolver, clock: nat -> nat, results: seq<ImportEntry>)
    requires |results| == |rows|
    requires forall i :: 0 <= i < |results| ==> results[i] == CsvEntry(rows[i], mapping, i, resolve, clock(i))
    ensures NumberedByPosition(results)
    ensures |ImportedAddresses(results)| == SuccessCount(results)
  {
    ImportedCountIsSuccessCount(results);
  }

  /**
   * With a clock that never runs backwards, two successes of one manual
   * import never share an id: the number after the CEP is the clock reading
   * plus the position, which strictly increases.
   */
  lemma ManualImportIdsAreDistinct(tokens: seq<string>, resolve: Resolver, clock: nat -> nat, results: seq<ImportEntry>, i: nat, j: nat)
    requires |results| == |tokens|
    requires forall k :: 0 <= k < |results| ==> results[k] == ManualEntry(tokens[k], k, resolve, clock(k))
    requires forall a, b :: 0 <= a <= b ==> clock(a) <= clock(b)
    requires i < j < |results| && results[i].data.Some? && results[j].data.Some?
    ensures results[i].data.value.id != results[j].data.value.id
  {
    var idI, idJ := results[i].data.value.id, results[j].data.value.id;
    assert |results[i].cep| == 8 && |results[j].cep| == 8;
    assert idI[9..] == NatToString(clock(i) + i);
    assert idJ[9..] == NatToString(clock(j) + j);
    assert clock(i) + i < clock(j) + j;
    if idI == idJ {
      NatToStringInjective(clock(i) + i, clock(j) + j);
    }
  }
}

=== FILE: route_manager.dfy ===
/**
 * The address list of a delivery route: renumbering, ordering by delivery
 * order, completion and the waypoint list handed to the map.
 */
module RouteManager {
  import opened Wrappers
  import opened Seqs

  datatype Point = Point(lat: real, lng: real)

  /**
   * A stop of the route. Coordinates are always present in this model; an
   * absent `isChecked` is `false`, which is how every reader treats it.
   */
  datatype RouteAddress = RouteAddress(
    id: string,
    description: string,
    lat: real,
    lng: real,
    isGeocoded: bool,
    deliveryOrder: Option<int>,
    isChecked: bool)

  function PositionOf(a: RouteAddress): Point {
    Point(a.lat, a.lng)
  }

  function Positions(s: seq<RouteAddress>): (ps: seq<Point>)
    ensures |ps| == |s|
    ensures forall i :: 0 <= i < |s| ==> ps[i] == PositionOf(s[i])
  {
    Map(PositionOf, s)
  }

  /** The stop itself, forgetting where in the plan it sits. */
  function Stop(a: RouteAddress): RouteAddress {
    a.(deliveryOrder := None)
  }

  function Stops(s: seq<RouteAddress>): (r: seq<RouteAddress>)
    ensures |r| == |s|
    ensures forall i :: 0 <= i < |s| ==> r[i] == Stop(s[i])
  {
    Map(Stop, s)
  }

  // ---------------------------------------------------------------------------
  // updateDeliveryOrder

  /** Numbers the list 1..n in its current order and changes nothing else. */
  function UpdateDeliveryOrder(s: seq<RouteAddress>): (r: seq<RouteAddress>)
    ensures |r| == |s|
    ensures Stops(r) == Stops(s)
    ensures forall i :: 0 <= i < |r| ==> r[i].deliveryOrder == Some(i + 1)
  {
    seq(|s|, i requires 0 <= i < |s| => s[i].(deliveryOrder := Some(i + 1)))
  }

  lemma UpdateDeliveryOrderIdempotent(s: seq<RouteAddress>)
    ensures UpdateDeliveryOrder(UpdateDeliveryOrder(s)) == UpdateDeliveryOrder(s)
  {
  }

  // ---------------------------------------------------------------------------
  // sortAddressesByDeliveryOrder

  /**
   * The comparator: both numbered compare by number, a numbered address
   * comes first, two unnumbered ones compare equal.
   */
  function CompareOrders(x: Option<int>, y: Option<int>): int {
    if x.Some? && y.Some? then x.value - y.value
    else if x.Some? then -1
    else if y.Some? then 1
    else 0
  }

  /** `a` may stand before `b` in a sorted list. */
  predicate Precedes(a: RouteAddress, b: RouteAddress) {
    CompareOrders(a.deliveryOrder, b.deliveryOrder) <= 0
  }

  predicate SortedByOrder(s: seq<RouteAddress>) {
    forall i, j :: 0 <= i < j < |s| ==> Precedes(s[i], s[j])
  }

  /** The addresses of `s` whose delivery order is `k`, in their order in `s`. */
  function WithOrder(s: seq<RouteAddress>, k: Option<int>): seq<RouteAddress>
    decreases |s|
  {
    if |s| == 0 then []
    else (if s[0].deliveryOrder == k then [s[0]] else []) + WithOrder(s[1..], k)
  }

  lemma {:induction false} WithOrderMembers(s: seq<RouteAddress>, k: Option<int>)
    ensures forall x :: x in WithOrder(s, k) ==> x in s && x.deliveryOrder == k
    decreases |s|
  {
    if |s| > 0 {
      WithOrderMembers(s[1..], k);
    }
  }

  lemma {:induction false} WithOrderConcat(a: seq<RouteAddress>, b: seq<RouteAddress>, k: Option<int>)
    ensures WithOrder(a + b, k) == WithOrder(a, k) + WithOrder(b, k)
    decreases |a|
  {
    if |a| == 0 {
      assert a + b == b;
    } else {
      assert (a + b)[0] == a[0];
      assert (a + b)[1..] == a[1..] + b;
      WithOrderConcat(a[1..], b, k);
      var head := if a[0].deliveryOrder == k then [a[0]] else [];
      calc {
        WithOrder(a + b, k);
        head + WithOrder(a[1..] + b, k);
        head + (WithOrder(a[1..], k) + WithOrder(b, k));
        (head + WithOrder(a[1..], k)) + WithOrder(b, k);
      }
    }
  }

  /** One step of a stable insertion sort: `x` goes before every address it may precede. */
  function Insert(x: RouteAddress, t: seq<RouteAddress>): seq<RouteAddress>
    decreases |t|
  {
    if |t| == 0 || Precedes(x, t[0]) then [x] + t else [t[0]] + Insert(x, t[1..])
  }

  lemma {:induction false} InsertIsPermutation(x: RouteAddress, t: seq<RouteAddress>)
    ensures |Insert(x, t)| == |t| + 1
    ensures multiset(Insert(x, t)) == multiset(t) + multiset{x}
    decreases |t|
  {
    if !(|t| == 0 || Precedes(x, t[0])) {
      InsertIsPermutation(x, t[1..]);
      assert t == [t[0]] + t[1..];
    }
  }

  /** Every address of `s` may stand after `y`. */
  predicate PrecedesAll(y: RouteAddress, s: seq<RouteAddress>) {
    forall i :: 0 <= i < |s| ==> Precedes(y, s[i])
  }

  lemma PrecedesAllPermutation(y: RouteAddress, s: seq<RouteAddress>, u: seq<RouteAddress>)
    requires PrecedesAll(y, s)
    requires multiset(u) == multiset(s)
    ensures PrecedesAll(y, u)
  {
    forall i | 0 <= i < |u| ensures Precedes(y, u[i]) {
      assert u[i] in multiset(s);
    }
  }

  lemma {:induction false} InsertIsSorted(x: RouteAddress, t: seq<RouteAddress>)
    requires SortedByOrder(t)
    ensures SortedByOrder(Insert(x, t))
    decreases |t|
  {
    if |t| == 0 || Precedes(x, t[0]) {
      assert PrecedesAll(x, t) by {
        forall i | 0 <= i < |t| ensures Precedes(x, t[i]) {
          assert i == 0 || Precedes(t[0], t[i]);
        }
      }
      assert Insert(x, t) == [x] + t;
    } else {
      var rest := Insert(x, t[1..]);
      InsertIsSorted(x, t[1..]);
      InsertIsPermutation(x, t[1..]);
      assert PrecedesAll(t[0], t[1..] + [x]) by {
        forall i | 0 <= i < |t| ensures Precedes(t[0], (t[1..] + [x])[i]) {
          if i < |t| - 1 {
            assert (t[1..] + [x])[i] == t[i + 1];
          }
        }
      }
      assert multiset(rest) == multiset(t[1..] + [x]);
      PrecedesAllPermutation(t[0], t[1..] + [x], rest);
      assert Insert(x, t) == [t[0]] + rest;
    }
  }

  lemma WithOrderCons(a: RouteAddress, rest: seq<RouteAddress>, k: Option<int>)
    ensures WithOrder([a] + rest, k) == (if a.deliveryOrder == k then [a] else []) + WithOrder(rest, k)
  {
    assert ([a] + rest)[0] == a && ([a] + rest)[1..] == rest;
  }

  /** An address inserted past another does not share its order. */
  lemma PassedOrderDiffers(x: RouteAddress, y: RouteAddress)
    requires !Precedes(x, y)
    ensures x.deliveryOrder != y.deliveryOrder
  {
  }

  /**
   * Putting `a` in front of two lists whose `k`-subsequences differ only by
   * a leading `x` keeps them so, when `a` and `x` have different orders.
   */
  lemma ConsKeepsLeading(a: RouteAddress, x: RouteAddress, rest: seq<RouteAddress>, tail: seq<RouteAddress>, k: Option<int>)
    requires a.deliveryOrder != x.deliveryOrder
    requires WithOrder(rest, k) == (if x.deliveryOrder == k then [x] else []) + WithOrder(tail, k)
    ensures WithOrder([a] + rest, k) == (if x.deliveryOrder == k then [x] else []) + WithOrder([a] + tail, k)
  {
    WithOrderCons(a, rest, k);
    WithOrderCons(a, tail, k);
    if x.deliveryOrder == k {
      assert WithOrder([a] + rest, k) == WithOrder(rest, k);
      assert WithOrder([a] + tail, k) == WithOrder(tail, k);
    } else {
      assert WithOrder(rest, k) == WithOrder(tail, k);
    }
  }

  /** The step of InsertIsStable where `x` moves past the head of `t`. */
  lemma InsertStableStep(x: RouteAddress, t: seq<RouteAddress>, k: Option<int>)
    requires |t| > 0 && !Precedes(x, t[0])
    requires WithOrder(Insert(x, t[1..]), k) == (if x.deliveryOrder == k then [x] else []) + WithOrder(t[1..], k)
    ensures WithOrder(Insert(x, t), k) == (if x.deliveryOrder == k then [x] else []) + WithOrder(t, k)
  {
    PassedOrderDiffers(x, t[0]);
    assert Insert(x, t) == [t[0]] + Insert(x, t[1..]);
    assert t == [t[0]] + t[1..];
    ConsKeepsLeading(t[0], x, Insert(x, t[1..]), t[1..], k);
  }

  lemma {:induction false} InsertIsStable(x: RouteAddress, t: seq<RouteAddress>, k: Option<int>)
    ensures WithOrder(Insert(x, t), k) == (if x.deliveryOrder == k then [x] else []) + WithOrder(t, k)
    decreases |t|
  {
    if |t| == 0 || Precedes(x, t[0]) {
      assert Insert(x, t) == [x] + t;
      WithOrderCons(x, t, k);
    } else {
      InsertIsStable(x, t[1..], k);
      InsertStableStep(x, t, k);
    }
  }



  /**
   * sortAddressesByDeliveryOrder: a stable sort of a copy by the comparator
   * above (the sort of the standard library is stable).
   */
  function SortByDeliveryOrder(s: seq<RouteAddress>): (r: seq<RouteAddress>)
    ensures |r| == |s|
    ensures multiset(r) == multiset(s)
    ensures SortedByOrder(r)
    ensures forall i, j :: 0 <= i < j < |r| && r[j].deliveryOrder.Some? ==> r[i].deliveryOrder.Some?
    ensures forall i, j :: 0 <= i < j < |r| && r[j].deliveryOrder.Some? ==>
      r[i].deliveryOrder.value <= r[j].deliveryOrder.value
    ensures forall k :: WithOrder(r, k) == WithOrder(s, k)
    decreases |s|
  {
    if |s| == 0 then []
    else
      var t := SortByDeliveryOrder(s[1..]);
      InsertIsPermutation(s[0], t);
      InsertIsSorted(s[0], t);
      assert s == [s[0]] + s[1..];
      assert forall k :: WithOrder(Insert(s[0], t), k) == WithOrder(s, k) by {
        forall k ensures WithOrder(Insert(s[0], t), k) == WithOrder(s, k) {
          InsertIsStable(s[0], t, k);
        }
      }
      Insert(s[0], t)
  }

  /** The head of a sorted list may precede every order that occurs in it. */
  lemma SortedHeadIsLeast(a: seq<RouteAddress>, k: Option<int>)
    requires SortedByOrder(a)
    requires WithOrder(a, k) != []
    ensures |a| > 0 && CompareOrders(a[0].deliveryOrder, k) <= 0
  {
    WithOrderMembers(a, k);
    var x := WithOrder(a, k)[0];
    assert x in WithOrder(a, k);
    var j :| 0 <= j < |a| && a[j] == x;
    assert j == 0 || Precedes(a[0], a[j]);
  }

  /** A sorted list is determined by its order classes taken in sequence. */
  lemma {:induction false} SortedUnique(a: seq<RouteAddress>, b: seq<RouteAddress>)
    requires SortedByOrder(a) && SortedByOrder(b)
    requires forall k :: WithOrder(a, k) == WithOrder(b, k)
    ensures a == b
    decreases |a|
  {
    if |a| == 0 || |b| == 0 {
      assert |b| > 0 ==> WithOrder(b, b[0].deliveryOrder) != [];
      assert |a| > 0 ==> WithOrder(a, a[0].deliveryOrder) != [];
    } else {
      var ka, kb := a[0].deliveryOrder, b[0].deliveryOrder;
      assert WithOrder(b, kb) == [b[0]] + WithOrder(b[1..], kb);
      SortedHeadIsLeast(a, kb);
      assert WithOrder(a, ka) == [a[0]] + WithOrder(a[1..], ka);
      SortedHeadIsLeast(b, ka);
      assert ka == kb;
      assert WithOrder(a, ka) == WithOrder(b, ka);
      assert a[0] == WithOrder(a, ka)[0] == b[0];
      forall k ensures WithOrder(a[1..], k) == WithOrder(b[1..], k) {
        var head := if ka == k then [a[0]] else [];
        assert WithOrder(a, k) == head + WithOrder(a[1..], k);
        assert WithOrder(b, k) == head + WithOrder(b[1..], k);
        assert WithOrder(a, k) == WithOrder(b, k);
        assert WithOrder(a[1..], k) == WithOrder(a, k)[|head|..];
      }
      SortedUnique(a[1..], b[1..]);
      assert a == [a[0]] + a[1..] && b == [b[0]] + b[1..];
    }
  }

  /**
   * Any stable sort by the comparator gives the list SortByDeliveryOrder
   * gives: sortedness and per-order stability pin the result down.
   */
  lemma StableSortIsUnique(s: seq<RouteAddress>, r: seq<RouteAddress>)
    requires SortedByOrder(r)
    requires forall k :: WithOrder(r, k) == WithOrder(s, k)
    ensures r == SortByDeliveryOrder(s)
  {
    SortedUnique(r, SortByDeliveryOrder(s));
  }

  /** A renumbered list is already in delivery order, so sorting it changes nothing. */
  lemma SortAfterUpdateIsIdentity(s: seq<RouteAddress>)
    ensures SortByDeliveryOrder(UpdateDeliveryOrder(s)) == UpdateDeliveryOrder(s)
  {
    var u := UpdateDeliveryOrder(s);
    assert SortedByOrder(u);
    StableSortIsUnique(u, u);
  }

  // ---------------------------------------------------------------------------
  // allDeliveriesCompleted

  predicate AllChecked(s: seq<RouteAddress>)
    decreases |s|
  {
    |s| == 0 || (s[0].isChecked && AllChecked(s[1..]))
  }

  /** Completed means: at least one address, and every address checked. */
  function AllDeliveriesCompleted(s: seq<RouteAddress>): (r: bool)
    ensures r <==> |s| > 0 && forall i :: 0 <= i < |s| ==> s[i].isChecked
  {
    AllCheckedMeansEvery(s);
    |s| > 0 && AllChecked(s)
  }

  lemma {:induction false} AllCheckedMeansEvery(s: seq<RouteAddress>)
    ensures AllChecked(s) <==> forall i :: 0 <= i < |s| ==> s[i].isChecked
    decreases |s|
  {
    if |s| > 0 {
      AllCheckedMeansEvery(s[1..]);
      assert forall i :: 1 <= i < |s| ==> s[i] == s[1..][i - 1];
    }
  }

  // ---------------------------------------------------------------------------
  // createWaypoints

  /** JavaScript truthiness of both origin coordinates. */
  predicate HasTruthyCoordinates(a: RouteAddress) {
    a.lat != 0.0 && a.lng != 0.0
  }

  /**
   * The map's point list: the origin, then the addresses in delivery order,
   * then the origin again when returning and both origin coordinates are
   * non-zero.
   */
  function CreateWaypoints(origin: Option<RouteAddress>, addresses: seq<RouteAddress>, returnToOrigin: bool): (r: seq<Point>)
    ensures origin.None? ==> r == []
    ensures origin.Some? ==>
      && |r| >= |addresses| + 1
      && r[0] == PositionOf(origin.value)
      && r[1..|addresses| + 1] == Positions(SortByDeliveryOrder(addresses))
    ensures origin.Some? ==>
      (|r| == |addresses| + 2 <==> returnToOrigin && HasTruthyCoordinates(origin.value))
    ensures origin.Some? && !(returnToOrigin && HasTruthyCoordinates(origin.value)) ==> |r| == |addresses| + 1
    ensures origin.Some? && returnToOrigin && HasTruthyCoordinates(origin.value) ==> r[|r| - 1] == r[0]
  {
    match origin
    case None => []
    case Some(o) =>
      var stops := Positions(SortByDeliveryOrder(addresses));
      var points := [PositionOf(o)] + stops;
      assert |stops| == |addresses| && points[1..|addresses| + 1] == stops;
      if returnToOrigin && HasTruthyCoordinates(o) then points + [PositionOf(o)] else points
  }

  /** The waypoints after the origin are the addresses' positions, reordered. */
  lemma WaypointsArePermutedPositions(origin: RouteAddress, addresses: seq<RouteAddress>, returnToOrigin: bool)
    ensures var w := CreateWaypoints(Some(origin), addresses, returnToOrigin);
      multiset(w[1..|addresses| + 1]) == multiset(Positions(addresses))
  {
    MapPermutation(PositionOf, SortByDeliveryOrder(addresses), addresses);
  }
}

=== FILE: route_optimizer.dfy ===
/**
 * Greedy nearest-neighbour ordering of the stops and the length of a route.
 * The great-circle formula is replaced by an abstract distance of which only
 * non-negativity is assumed.
 */
module RouteOptimizer {
  import opened Wrappers
  import opened Seqs
  import opened RouteManager

  /** A distance between two points: any function with non-negative values. */
  type Distance = f: (Point, Point) -> real | forall p, q :: 0.0 <= f(p, q)
    witness (p: Point, q: Point) => 0.0

  /**
   * `k` is where the scan settles: a stop of `s` nearest to `cur`, and the
   * first such stop, because only a strictly shorter distance replaces it.
   */
  predicate IsFirstNearest(dist: Distance, cur: Point, s: seq<RouteAddress>, k: nat) {
    && k < |s|
    && (forall j :: 0 <= j < |s| ==> dist(cur, PositionOf(s[k])) <= dist(cur, PositionOf(s[j])))
    && (forall j :: 0 <= j < k ==> dist(cur, PositionOf(s[k])) < dist(cur, PositionOf(s[j])))
  }

  /** The inner `for` loop, from index `i` on, with the best index so far. */
  function Scan(dist: Distance, cur: Point, s: seq<RouteAddress>, i: nat, best: nat): (k: nat)
    requires best < i <= |s|
    requires IsFirstNearest(dist, cur, s[..i], best)
    ensures IsFirstNearest(dist, cur, s, k)
    decreases |s| - i
  {
    if i == |s| then
      assert s[..i] == s;
      best
    else if dist(cur, PositionOf(s[i])) < dist(cur, PositionOf(s[best])) then
      Scan(dist, cur, s, i + 1, i)
    else
      Scan(dist, cur, s, i + 1, best)
  }

  /** The index the scan picks among the unvisited stops. */
  function NearestIndex(dist: Distance, cur: Point, s: seq<RouteAddress>): (k: nat)
    requires |s| > 0
    ensures IsFirstNearest(dist, cur, s, k)
  {
    Scan(dist, cur, s, 1, 0)
  }

  /**
   * The outer `while` loop: repeatedly take the first nearest unvisited stop
   * out of a copy of the list and stand at it.
   */
  function NearestNeighborTour(dist: Distance, cur: Point, unvisited: seq<RouteAddress>): (tour: seq<RouteAddress>)
    ensures |tour| == |unvisited|
    ensures multiset(tour) == multiset(unvisited)
    decreases |unvisited|
  {
    if |unvisited| == 0 then []
    else
      var k := NearestIndex(dist, cur, unvisited);
      var next := unvisited[k];
      var rest := NearestNeighborTour(dist, PositionOf(next), RemoveAt(unvisited, k));
      assert multiset(unvisited) == multiset(RemoveAt(unvisited, k)) + multiset{next};
      [next] + rest
  }

  /**
   * Nearest first: standing at `start`, the next point is at least as close
   * as every point still to come, and the same holds from there on.
   */
  predicate NearestFirst(dist: Distance, start: Point, ps: seq<Point>)
    decreases |ps|
  {
    |ps| == 0 ||
    ((forall j :: 0 <= j < |ps| ==> dist(start, ps[0]) <= dist(start, ps[j])) && NearestFirst(dist, ps[0], ps[1..]))
  }

  /** The first stop of a tour is nearest to the starting point among all its stops. */
  lemma TourHeadIsNearest(dist: Distance, cur: Point, unvisited: seq<RouteAddress>)
    requires |unvisited| > 0
    ensures var tour := NearestNeighborTour(dist, cur, unvisited);
      forall j :: 0 <= j < |tour| ==> dist(cur, PositionOf(tour[0])) <= dist(cur, PositionOf(tour[j]))
  {
    var tour := NearestNeighborTour(dist, cur, unvisited);
    var k0 := NearestIndex(dist, cur, unvisited);
    assert tour[0] == unvisited[k0];
    forall j | 0 <= j < |tour| ensures dist(cur, PositionOf(tour[0])) <= dist(cur, PositionOf(tour[j])) {
      assert tour[j] in multiset(unvisited);
      var m :| 0 <= m < |unvisited| && unvisited[m] == tour[j];
    }
  }

  /** A tour whose first stop is nearest, and which is nearest-first from there, is nearest-first. */
  lemma NearestFirstStep(dist: Distance, cur: Point, tour: seq<RouteAddress>)
    requires |tour| > 0
    requires forall j :: 0 <= j < |tour| ==> dist(cur, PositionOf(tour[0])) <= dist(cur, PositionOf(tour[j]))
    requires NearestFirst(dist, PositionOf(tour[0]), Positions(tour[1..]))
    ensures NearestFirst(dist, cur, Positions(tour))
  {
    var ps := Positions(tour);
    MapConcat(PositionOf, [tour[0]], tour[1..]);
    assert tour == [tour[0]] + tour[1..];
    assert ps[1..] == Positions(tour[1..]);
    forall j | 0 <= j < |ps| ensures dist(cur, ps[0]) <= dist(cur, ps[j]) {
      assert ps[j] == PositionOf(tour[j]);
    }
  }

  /** The tour visits, from wherever it stands, a nearest remaining stop next. */
  lemma {:induction false} TourIsNearestFirst(dist: Distance, cur: Point, unvisited: seq<RouteAddress>)
    ensures NearestFirst(dist, cur, Positions(NearestNeighborTour(dist, cur, unvisited)))
    decreases |unvisited|
  {
    if |unvisited| > 0 {
      var tour := NearestNeighborTour(dist, cur, unvisited);
      var k0 := NearestIndex(dist, cur, unvisited);
      var next := unvisited[k0];
      assert tour[0] == next;
      assert tour[1..] == NearestNeighborTour(dist, PositionOf(next), RemoveAt(unvisited, k0));
      TourIsNearestFirst(dist, PositionOf(next), RemoveAt(unvisited, k0));
      TourHeadIsNearest(dist, cur, unvisited);
      NearestFirstStep(dist, cur, tour);
    }
  }

  /** Only one index can be where the scan settles. */
  lemma FirstNearestIsUnique(dist: Distance, cur: Point, s: seq<RouteAddress>, k: nat, k': nat)
    requires IsFirstNearest(dist, cur, s, k) && IsFirstNearest(dist, cur, s, k')
    ensures k == k'
  {
    // Each is at least as near as the other, so neither can be strictly nearer.
    assert dist(cur, PositionOf(s[k])) <= dist(cur, PositionOf(s[k']));
    assert dist(cur, PositionOf(s[k'])) <= dist(cur, PositionOf(s[k]));
  }

  /**
   * The greedy rule, step by step: standing at `cur` with `remaining` to
   * visit, the tour's next stop is the first nearest remaining one, and the
   * rest of the tour follows the same rule from there, without it. Stops are
   * compared without their delivery numbers.
   */
  predicate IsGreedyTour(dist: Distance, cur: Point, remaining: seq<RouteAddress>, tour: seq<RouteAddress>)
    decreases |remaining|
  {
    && |tour| == |remaining|
    && forall k :: 0 <= k < |remaining| && IsFirstNearest(dist, cur, remaining, k) ==>
         && Stop(tour[0]) == Stop(remaining[k])
         && IsGreedyTour(dist, PositionOf(remaining[k]), RemoveAt(remaining, k), tour[1..])
  }

  /** The greedy loop follows the greedy rule. */
  lemma {:induction false} TourIsGreedy(dist: Distance, cur: Point, unvisited: seq<RouteAddress>)
    ensures IsGreedyTour(dist, cur, unvisited, NearestNeighborTour(dist, cur, unvisited))
    decreases |unvisited|
  {
    var tour := NearestNeighborTour(dist, cur, unvisited);
    if |unvisited| > 0 {
      var k0 := NearestIndex(dist, cur, unvisited);
      TourIsGreedy(dist, PositionOf(unvisited[k0]), RemoveAt(unvisited, k0));
      assert tour[1..] == NearestNeighborTour(dist, PositionOf(unvisited[k0]), RemoveAt(unvisited, k0));
      forall k | 0 <= k < |unvisited| && IsFirstNearest(dist, cur, unvisited, k)
        ensures Stop(tour[0]) == Stop(unvisited[k])
        ensures IsGreedyTour(dist, PositionOf(unvisited[k]), RemoveAt(unvisited, k), tour[1..])
      {
        FirstNearestIsUnique(dist, cur, unvisited, k, k0);
      }
    }
  }

  /** The greedy rule looks at the stops, not at the numbers they carry. */
  lemma {:induction false} GreedyIgnoresNumbers(dist: Distance, cur: Point, remaining: seq<RouteAddress>, t: seq<RouteAddress>, u: seq<RouteAddress>)
    requires IsGreedyTour(dist, cur, remaining, t)
    requires Stops(t) == Stops(u)
    ensures IsGreedyTour(dist, cur, remaining, u)
    decreases |remaining|
  {
    if |remaining| > 0 {
      assert Stop(u[0]) == Stops(u)[0] == Stops(t)[0] == Stop(t[0]);
      assert Stops(t[1..]) == Stops(t)[1..] == Stops(u)[1..] == Stops(u[1..]);
      forall k | 0 <= k < |remaining| && IsFirstNearest(dist, cur, remaining, k)
        ensures IsGreedyTour(dist, PositionOf(remaining[k]), RemoveAt(remaining, k), u[1..])
      {
        GreedyIgnoresNumbers(dist, PositionOf(remaining[k]), RemoveAt(remaining, k), t[1..], u[1..]);
      }
    }
  }

  /** The greedy rule leaves no choice: two tours that follow it visit the same stops in the same order. */
  lemma {:induction false} GreedyTourIsUnique(dist: Distance, cur: Point, remaining: seq<RouteAddress>, t: seq<RouteAddress>, u: seq<RouteAddress>)
    requires IsGreedyTour(dist, cur, remaining, t) && IsGreedyTour(dist, cur, remaining, u)
    ensures Stops(t) == Stops(u)
    decreases |remaining|
  {
    if |remaining| > 0 {
      var k := NearestIndex(dist, cur, remaining);
      var next, rest := PositionOf(remaining[k]), RemoveAt(remaining, k);
      assert Stop(t[0]) == Stop(remaining[k]) && IsGreedyTour(dist, next, rest, t[1..]);
      assert Stop(u[0]) == Stop(remaining[k]) && IsGreedyTour(dist, next, rest, u[1..]);
      GreedyTourIsUnique(dist, next, rest, t[1..], u[1..]);
      forall i | 0 <= i < |t| ensures Stops(t)[i] == Stops(u)[i] {
        if i > 0 {
          assert Stops(t[1..])[i - 1] == Stops(u[1..])[i - 1];
        }
      }
    }
  }

  /**
   * optimizeRouteNearestNeighbor: the greedy tour from the origin, numbered
   * 1..n. The input is a value and is left as it was.
   */
  function OptimizeRouteNearestNeighbor(dist: Distance, origin: RouteAddress, addresses: seq<RouteAddress>): (r: seq<RouteAddress>)
    ensures |addresses| == 0 ==> r == []
    ensures |r| == |addresses|
    ensures multiset(Stops(r)) == multiset(Stops(addresses))
    ensures forall i :: 0 <= i < |r| ==> r[i].deliveryOrder == Some(i + 1)
    ensures NearestFirst(dist, PositionOf(origin), Positions(r))
    ensures IsGreedyTour(dist, PositionOf(origin), addresses, r)
  {
    if |addresses| == 0 then []
    else
      var tour := NearestNeighborTour(dist, PositionOf(origin), addresses);
      TourIsNearestFirst(dist, PositionOf(origin), addresses);
      MapPermutation(Stop, tour, addresses);
      var r := UpdateDeliveryOrder(tour);
      assert Positions(r) == Positions(tour);
      TourIsGreedy(dist, PositionOf(origin), addresses);
      GreedyIgnoresNumbers(dist, PositionOf(origin), addresses, tour, r);
      r
  }

  /** Every pair of points is equally far apart: every choice is a tie. */
  ghost predicate AllTied(dist: Distance) {
    forall p, q :: dist(p, q) == 0.0
  }

  /** With all distances tied, the scan never moves off the first stop. */
  lemma TiedScanPicksFirst(dist: Distance, cur: Point, s: seq<RouteAddress>)
    requires AllTied(dist)
    requires |s| > 0
    ensures NearestIndex(dist, cur, s) == 0
  {
    var k0 := NearestIndex(dist, cur, s);
    assert IsFirstNearest(dist, cur, s, 0) by {
      forall j | 0 <= j < |s|
        ensures dist(cur, PositionOf(s[0])) <= dist(cur, PositionOf(s[j]))
      {
        assert dist(cur, PositionOf(s[0])) == 0.0 == dist(cur, PositionOf(s[j]));
      }
    }
    FirstNearestIsUnique(dist, cur, s, k0, 0);
  }

  /** When every distance ties, the lowest index always wins: the stops keep their order and are renumbered. */
  lemma {:induction false} TiesKeepInputOrder(dist: Distance, cur: Point, unvisited: seq<RouteAddress>)
    requires AllTied(dist)
    ensures NearestNeighborTour(dist, cur, unvisited) == unvisited
    decreases |unvisited|
  {
    if |unvisited| > 0 {
      TiedScanPicksFirst(dist, cur, unvisited);
      var rest := RemoveAt(unvisited, 0);
      assert rest == unvisited[1..];
      TiesKeepInputOrder(dist, PositionOf(unvisited[0]), rest);
      assert unvisited == [unvisited[0]] + rest;
    }
  }

  lemma OptimizedRouteKeepsOrderOnTies(dist: Distance, origin: RouteAddress, addresses: seq<RouteAddress>)
    requires AllTied(dist)
    ensures OptimizeRouteNearestNeighbor(dist, origin, addresses) == UpdateDeliveryOrder(addresses)
  {
    if |addresses| > 0 {
      TiesKeepInputOrder(dist, PositionOf(origin), addresses);
    }
  }

  /** The first stop of an optimized route is the first stop nearest to the origin. */
  lemma OptimizedRouteStartsNearest(dist: Distance, origin: RouteAddress, addresses: seq<RouteAddress>)
    requires |addresses| > 0
    ensures var r := OptimizeRouteNearestNeighbor(dist, origin, addresses);
      Stop(r[0]) == Stop(addresses[NearestIndex(dist, PositionOf(origin), addresses)])
  {
  }

  // ---------------------------------------------------------------------------
  // calculateTotalRouteDistance

  /** The length of the polyline through `ps`: the sum of its legs. */
  function PathLength(dist: Distance, ps: seq<Point>): real
    decreases |ps|
  {
    if |ps| < 2 then 0.0 else PathLength(dist, ps[..|ps| - 1]) + dist(ps[|ps| - 2], ps[|ps| - 1])
  }

  lemma {:induction false} PathLengthNonNegative(dist: Distance, ps: seq<Point>)
    ensures PathLength(dist, ps) >= 0.0
    decreases |ps|
  {
    if |ps| >= 2 {
      PathLengthNonNegative(dist, ps[..|ps| - 1]);
    }
  }

  /**
   * calculateTotalRouteDistance: the legs origin, a1, ..., an in the given
   * order, plus the leg back to the origin when asked; 0 for no stops.
   */
  method CalculateTotalRouteDistance(dist: Distance, origin: RouteAddress, addresses: seq<RouteAddress>, returnToOrigin: bool)
    returns (total: real)
    ensures |addresses| == 0 ==> total == 0.0
    ensures !returnToOrigin ==> total == PathLength(dist, [PositionOf(origin)] + Positions(addresses))
    ensures returnToOrigin && |addresses| > 0 ==>
      total == PathLength(dist, [PositionOf(origin)] + Positions(addresses))
               + dist(PositionOf(addresses[|addresses| - 1]), PositionOf(origin))
    ensures total >= PathLength(dist, [PositionOf(origin)] + Positions(addresses)) >= 0.0
  {
    if |addresses| == 0 {
      return 0.0;
    }
    total := 0.0;
    var previous := PositionOf(origin);
    var i := 0;
    while i < |addresses|
      invariant 0 <= i <= |addresses|
      invariant previous == if i == 0 then PositionOf(origin) else PositionOf(addresses[i - 1])
      invariant total == PathLength(dist, [PositionOf(origin)] + Positions(addresses[..i]))
    {
      var ps := [PositionOf(origin)] + Positions(addresses[..i + 1]);
      assert ps[..|ps| - 1] == [PositionOf(origin)] + Positions(addresses[..i]);
      total := total + dist(previous, PositionOf(addresses[i]));
      previous := PositionOf(addresses[i]);
      i := i + 1;
    }
    assert addresses[..i] == addresses;
    PathLengthNonNegative(dist, [PositionOf(origin)] + Positions(addresses));
    if returnToOrigin {
      total := total + dist(previous, PositionOf(origin));
    }
  }

  /**
   * The map draws the route that was measured: for an optimized route from
   * an origin with non-zero coordinates, the waypoints are the origin, the
   * stops in tour order, and the origin again exactly when returning.
   */
  lemma WaypointsFollowOptimizedRoute(dist: Distance, origin: RouteAddress, addresses: seq<RouteAddress>, returnToOrigin: bool)
    requires HasTruthyCoordinates(origin)
    ensures var r := OptimizeRouteNearestNeighbor(dist, origin, addresses);
      CreateWaypoints(Some(origin), r, returnToOrigin)
        == [PositionOf(origin)] + Positions(r) + (if returnToOrigin then [PositionOf(origin)] else [])
  {
    var r := OptimizeRouteNearestNeighbor(dist, origin, addresses);
    if |addresses| > 0 {
      var tour := NearestNeighborTour(dist, PositionOf(origin), addresses);
      SortAfterUpdateIsIdentity(tour);
    }
  }
}

=== FILE: route_planner.dfy ===
/**
 * The route planner screen: its state and the handlers that change it. Each
 * handler is a function from the state (and whatever the user or the network
 * supplied) to the next state; a CEP lookup is a `Resolver` parameter and the
 * clock reading is a number.
 */
module RoutePlanner {
  import opened Wrappers
  import opened Text
  import opened Seqs
  import opened RouteManager
  import opened GeocodeService

  datatype PlannerState = PlannerState(
    originCep: string,
    origin: Option<RouteAddress>,
    addressCep: string,
    addresses: seq<RouteAddress>,
    waypoints: seq<Point>,
    routeKey: nat,
    originError: Option<string>,
    addressError: Option<string>,
    isCalculatingRoute: bool)

  /** The next state, and the CEP looked up on the way, if any. */
  datatype Step = Step(state: PlannerState, lookup: Option<string>)

  const NotFoundMessage := "N\U{E3}o foi poss\U{ED}vel encontrar o CEP. Verifique e tente novamente."
  const DuplicateMessage := "Este CEP j\U{E1} foi adicionado \U{E0} lista."

  // ---------------------------------------------------------------------------
  // handleAddOrigin

  /**
   * handleAddOrigin: nothing happens for an empty box; otherwise the typed
   * CEP is looked up, and either becomes the origin (with the typed text as
   * its id, unnumbered) and the box is cleared, or the not-found message is
   * shown and the box keeps its text.
   */
  function HandleAddOrigin(st: PlannerState, resolve: Resolver): (s: Step)
    ensures st.originCep == "" ==> s == Step(st, None)
    ensures st.originCep != "" ==> s.lookup == Some(st.originCep)
    ensures s.state.addresses == st.addresses && s.state.addressCep == st.addressCep
    ensures s.state.waypoints == st.waypoints && s.state.routeKey == st.routeKey
    ensures st.originCep != "" && resolve(st.originCep).Some? ==>
      var loc := resolve(st.originCep).value;
      && s.state.origin == Some(RouteAddress(st.originCep, loc.description, loc.lat, loc.lng, true, None, false))
      && s.state.originCep == "" && s.state.originError.None?
    ensures st.originCep != "" && resolve(st.originCep).None? ==>
      s.state == st.(originError := Some(NotFoundMessage))
  {
    if st.originCep == "" then Step(st, None)
    else
      var cep := st.originCep;
      match resolve(cep)
      case Some(loc) =>
        var origin := RouteAddress(cep, loc.description, loc.lat, loc.lng, true, None, false);
        Step(st.(origin := Some(origin), originCep := "", originError := None), Some(cep))
      case None =>
        Step(st.(originError := Some(NotFoundMessage)), Some(cep))
  }

  /**
   * A found origin is where the route begins, and pressing the button again
   * finds an empty box and changes nothing.
   */
  lemma RouteStartsAtAddedOrigin(st: PlannerState, resolve: Resolver, forceReturn: bool)
    requires st.originCep != "" && resolve(st.originCep).Some?
    requires |st.addresses| >= 1 && !st.isCalculatingRoute
    ensures var s := HandleAddOrigin(st, resolve).state;
      && HandleAddOrigin(s, resolve) == Step(s, None)
      && CalculateRoute(s, forceReturn).waypoints[0] == Point(resolve(st.originCep).value.lat, resolve(st.originCep).value.lng)
  {
  }

  // ---------------------------------------------------------------------------
  // handleAddAddress

  /** The id a stop added by hand gets: the typed CEP and the clock reading. */
  function AddedId(cep: string, now: nat): string {
    cep + "-" + NatToString(now)
  }

  /** The duplicate test as written: some stop's id is the typed text itself. */
  predicate IdEqualsCep(id: string, cep: string) {
    id == cep
  }

  /**
   * The duplicate test as intended: the id is the typed CEP, or the typed
   * CEP followed by a hyphen and the digits of a clock reading.
   */
  predicate IdIsOfCep(id: string, cep: string) {
    || id == cep
    || (|id| > |cep| + 1 && id[..|cep| + 1] == cep + "-" && AllDigits(id[|cep| + 1..]))
  }

  /** Some stop of the list is, by the given test, the typed CEP. */
  predicate AlreadyListed(addresses: seq<RouteAddress>, cep: string, sameCep: (string, string) -> bool) {
    exists i :: 0 <= i < |addresses| && sameCep(addresses[i].id, cep)
  }

  /**
   * handleAddAddress with a given duplicate test: nothing happens for an
   * empty box; a listed CEP gets the duplicate message and no lookup;
   * otherwise the CEP is looked up and either appended as the next numbered
   * stop (the box is cleared) or answered with the not-found message.
   */
  function AddAddressWith(st: PlannerState, resolve: Resolver, now: nat, sameCep: (string, string) -> bool): (s: Step)
    ensures st.addressCep == "" ==> s == Step(st, None)
    ensures st.addressCep != "" && AlreadyListed(st.addresses, st.addressCep, sameCep) ==>
      s == Step(st.(addressError := Some(DuplicateMessage)), None)
    ensures st.addressCep != "" && !AlreadyListed(st.addresses, st.addressCep, sameCep) ==>
      s.lookup == Some(st.addressCep)
    ensures s.state.origin == st.origin && s.state.originCep == st.originCep
    ensures s.state.waypoints == st.waypoints && s.state.routeKey == st.routeKey
    ensures s.lookup.Some? && resolve(st.addressCep).Some? ==>
      var loc := resolve(st.addressCep).value;
      && s.state.addresses == st.addresses + [RouteAddress(AddedId(st.addressCep, now), loc.description, loc.lat, loc.lng, true, Some(|st.addresses| + 1), false)]
      && s.state.addressCep == "" && s.state.addressError.None?
    ensures s.lookup.Some? && resolve(st.addressCep).None? ==>
      s.state == st.(addressError := Some(NotFoundMessage))
  {
    var cep := st.addressCep;
    if cep == "" then Step(st, None)
    else if AlreadyListed(st.addresses, cep, sameCep) then
      Step(st.(addressError := Some(DuplicateMessage)), None)
    else
      match resolve(cep)
      case Some(loc) =>
        var added := RouteAddress(AddedId(cep, now), loc.description, loc.lat, loc.lng, true, Some(|st.addresses| + 1), false);
        Step(st.(addresses := st.addresses + [added], addressCep := "", addressError := None), Some(cep))
      case None =>
        Step(st.(addressError := Some(NotFoundMessage)), Some(cep))
  }

  /** handleAddAddress exactly as written: the duplicate test compares each id with the typed CEP. */
  function HandleAddAddressAsWritten(st: PlannerState, resolve: Resolver, now: nat): (s: Step)
    ensures st.addressCep != "" && resolve(st.addressCep).Some? && (forall i :: 0 <= i < |st.addresses| ==> st.addresses[i].id != st.addressCep) ==>
      |s.state.addresses| == |st.addresses| + 1
  {
    AddAddressWith(st, resolve, now, IdEqualsCep)
  }

  /** handleAddAddress with the duplicate test recognising the ids the handler itself creates. */
  function HandleAddAddressIntended(st: PlannerState, resolve: Resolver, now: nat): (s: Step)
    ensures st.addressCep != "" && (exists i :: 0 <= i < |st.addresses| && IdIsOfCep(st.addresses[i].id, st.addressCep)) ==>
      s.state.addresses == st.addresses && s.state.addressError == Some(DuplicateMessage) && s.lookup.None?
    ensures st.addressCep != "" && (forall i :: 0 <= i < |st.addresses| ==> !IdIsOfCep(st.addresses[i].id, st.addressCep)) ==>
      s.lookup == Some(st.addressCep)
  {
    AddAddressWith(st, resolve, now, IdIsOfCep)
  }

  /** The id given to a stop added by hand is recognised as belonging to its CEP. */
  lemma AddedIdIsOfCep(cep: string, now: nat)
    ensures IdIsOfCep(AddedId(cep, now), cep)
    ensures AddedId(cep, now) != cep
  {
    var id := AddedId(cep, now);
    assert id[..|cep| + 1] == cep + "-";
    assert id[|cep| + 1..] == NatToString(now);
  }

  /** The user adds the same CEP twice, the second time after retyping it. */
  function AddTwice(st: PlannerState, resolve: Resolver, now1: nat, now2: nat, add: (PlannerState, Resolver, nat) -> Step): PlannerState {
    var first := add(st, resolve, now1).state;
    add(first.(addressCep := st.addressCep), resolve, now2).state
  }

  /**
   * As written, the duplicate check never fires for a CEP added by hand: its
   * id carries the clock reading, so adding the same CEP again lists it twice.
   */
  lemma DuplicateCheckMissesAddedCep(st: PlannerState, resolve: Resolver, now1: nat, now2: nat)
    requires st.addressCep != "" && st.addresses == [] && resolve(st.addressCep).Some?
    ensures var twice := AddTwice(st, resolve, now1, now2, HandleAddAddressAsWritten);
      && |twice.addresses| == 2
      && twice.addresses[0].id == AddedId(st.addressCep, now1)
      && twice.addresses[1].id == AddedId(st.addressCep, now2)
      && twice.addressError.None?
  {
    var cep := st.addressCep;
    var first := HandleAddAddressAsWritten(st, resolve, now1).state;
    AddedIdIsOfCep(cep, now1);
    assert first.addresses[0].id != cep;
    var again := first.(addressCep := cep);
    assert forall i :: 0 <= i < |again.addresses| ==> again.addresses[i].id != cep;
  }

  /**
   * With the intended test, a CEP added by hand is refused the second time:
   * the list keeps one stop for it and the duplicate message is shown.
   */
  lemma DuplicateCheckCatchesAddedCep(st: PlannerState, resolve: Resolver, now1: nat, now2: nat)
    requires st.addressCep != "" && st.addresses == [] && resolve(st.addressCep).Some?
    ensures var twice := AddTwice(st, resolve, now1, now2, HandleAddAddressIntended);
      && |twice.addresses| == 1
      && twice.addresses[0].id == AddedId(st.addressCep, now1)
      && twice.addressError == Some(DuplicateMessage)
  {
    var cep := st.addressCep;
    var first := HandleAddAddressIntended(st, resolve, now1).state;
    AddedIdIsOfCep(cep, now1);
    assert IdIsOfCep(first.addresses[0].id, cep);
  }

  // ---------------------------------------------------------------------------
  // handleRemoveAddress

  /**
   * `filter(addr => addr.id !== id)`: the stops with another id, in their
   * order. A one-stop list is kept or emptied; with RemoveByIdConcat this
   * fixes the result for every list.
   */
  function RemoveById(s: seq<RouteAddress>, id: string): (r: seq<RouteAddress>)
    ensures |r| <= |s|
    ensures forall i :: 0 <= i < |r| ==> r[i].id != id && r[i] in s
    ensures forall a :: a in s && a.id != id ==> a in r
    ensures IsSubsequence(r, s)
    ensures |s| == 1 ==> r == (if s[0].id == id then [] else s)
    decreases |s|
  {
    if |s| == 0 then []
    else
      var rest := RemoveById(s[1..], id);
      if s[0].id != id then [s[0]] + rest else rest
  }

  /** Filtering works piece by piece. */
  lemma {:induction false} RemoveByIdConcat(a: seq<RouteAddress>, b: seq<RouteAddress>, id: string)
    ensures RemoveById(a + b, id) == RemoveById(a, id) + RemoveById(b, id)
    decreases |a|
  {
    if |a| == 0 {
      assert a + b == b;
    } else {
      assert (a + b)[0] == a[0];
      assert (a + b)[1..] == a[1..] + b;
      RemoveByIdConcat(a[1..], b, id);
    }
  }

  /** Removing an id nobody has changes nothing. */
  lemma {:induction false} RemoveAbsentIdIsIdentity(s: seq<RouteAddress>, id: string)
    requires forall i :: 0 <= i < |s| ==> s[i].id != id
    ensures RemoveById(s, id) == s
    decreases |s|
  {
    if |s| > 0 {
      assert forall i :: 0 <= i < |s| - 1 ==> s[1..][i] == s[i + 1];
      RemoveAbsentIdIsIdentity(s[1..], id);
      assert RemoveById(s, id) == [s[0]] + RemoveById(s[1..], id);
      assert s == [s[0]] + s[1..];
    }
  }

  /** Removing is idempotent. */
  lemma RemoveTwiceIsRemoveOnce(s: seq<RouteAddress>, id: string)
    ensures RemoveById(RemoveById(s, id), id) == RemoveById(s, id)
  {
    RemoveAbsentIdIsIdentity(RemoveById(s, id), id);
  }

  /**
   * Removing keeps the delivery order: a list in delivery order stays in it,
   * although the numbers are not renumbered and may now have gaps.
   */
  lemma RemoveKeepsDeliveryOrder(s: seq<RouteAddress>, id: string)
    requires SortedByOrder(s)
    ensures SortedByOrder(RemoveById(s, id))
  {
    SubsequenceOfSorted(RemoveById(s, id), s);
  }

  lemma SortedTail(s: seq<RouteAddress>)
    requires SortedByOrder(s) && |s| > 0
    ensures SortedByOrder(s[1..])
  {
    forall i, j | 0 <= i < j < |s[1..]| ensures Precedes(s[1..][i], s[1..][j]) {
      assert s[1..][i] == s[i + 1] && s[1..][j] == s[j + 1];
    }
  }

  /** Leaving stops out of a list in delivery order leaves it in delivery order. */
  lemma {:induction false} SubsequenceOfSorted(r: seq<RouteAddress>, s: seq<RouteAddress>)
    requires IsSubsequence(r, s) && SortedByOrder(s)
    ensures SortedByOrder(r)
    decreases |s|
  {
    if |r| > 0 {
      SortedTail(s);
      if r[0] == s[0] && IsSubsequence(r[1..], s[1..]) {
        SubsequenceOfSorted(r[1..], s[1..]);
        SubsequenceMembers(r[1..], s[1..]);
        forall i, j | 0 <= i < j < |r| ensures Precedes(r[i], r[j]) {
          if i == 0 {
            assert r[j] == r[1..][j - 1] && r[j] in s[1..];
            var m :| 0 <= m < |s[1..]| && s[1..][m] == r[j];
            assert s[1..][m] == s[m + 1];
          } else {
            assert r[i] == r[1..][i - 1] && r[j] == r[1..][j - 1];
          }
        }
      } else {
        SubsequenceOfSorted(r, s[1..]);
      }
    }
  }

  /** Every stop without the id keeps all its copies. */
  lemma {:induction false} RemoveByIdKeepsCopies(s: seq<RouteAddress>, id: string)
    ensures forall a: RouteAddress :: a.id != id ==> multiset(RemoveById(s, id))[a] == multiset(s)[a]
    decreases |s|
  {
    if |s| > 0 {
      RemoveByIdKeepsCopies(s[1..], id);
      assert s == [s[0]] + s[1..];
      assert RemoveById(s, id) == (if s[0].id != id then [s[0]] else []) + RemoveById(s[1..], id);
    }
  }

  /**
   * handleRemoveAddress: only the list changes, losing the stops with that
   * id; the others stay, every copy of them, in their order.
   */
  function HandleRemoveAddress(st: PlannerState, id: string): (s: PlannerState)
    ensures s == st.(addresses := s.addresses)
    ensures IsSubsequence(s.addresses, st.addresses)
    ensures forall i :: 0 <= i < |s.addresses| ==> s.addresses[i].id != id
    ensures forall a :: a in st.addresses && a.id != id ==> a in s.addresses
    ensures forall a :: a in s.addresses ==> a in st.addresses
    ensures forall a: RouteAddress :: a.id != id ==> multiset(s.addresses)[a] == multiset(st.addresses)[a]
  {
    RemoveByIdKeepsCopies(st.addresses, id);
    st.(addresses := RemoveById(st.addresses, id))
  }

  // ---------------------------------------------------------------------------
  // handleDragEnd

  /** `items.splice(i, 0, x)` for an index within the list; Landing keeps drops there. */
  function InsertAt<T>(s: seq<T>, i: nat, x: T): (r: seq<T>)
    requires i <= |s|
    ensures |r| == |s| + 1 && r[i] == x
    ensures r[..i] == s[..i] && r[i + 1..] == s[i..]
  {
    s[..i] + [x] + s[i..]
  }

  /** Where a dropped item lands: the destination index, kept within the shortened list. */
  function Landing(n: nat, destination: nat): (k: nat)
    requires n > 0
    ensures k < n
  {
    if destination < n - 1 then destination else n - 1
  }

  /** The two `splice` calls of a drag: take the item at `source` out, put it back at `destination`. */
  function Reorder<T>(s: seq<T>, source: nat, destination: nat): (r: seq<T>)
    requires source < |s|
    ensures |r| == |s|
    ensures r[Landing(|s|, destination)] == s[source]
    ensures RemoveAt(r, Landing(|s|, destination)) == RemoveAt(s, source)
    ensures multiset(r) == multiset(s)
  {
    var rest := RemoveAt(s, source);
    var k := Landing(|s|, destination);
    var r := InsertAt(rest, k, s[source]);
    assert RemoveAt(r, k) == rest by {
      assert r[..k] == rest[..k] && r[k + 1..] == rest[k..];
      assert rest == rest[..k] + rest[k..];
    }
    assert multiset(r) == multiset(rest) + multiset{s[source]} by {
      assert r == rest[..k] + [s[source]] + rest[k..];
      assert rest == rest[..k] + rest[k..];
    }
    r
  }

  /** Dragging the item back from where it landed to where it came from restores the list. */
  lemma ReorderBackRestores<T>(s: seq<T>, source: nat, destination: nat)
    requires source < |s|
    ensures Reorder(Reorder(s, source, destination), Landing(|s|, destination), source) == s
  {
    var m := Reorder(s, source, destination);
    var k := Landing(|s|, destination);
    var rest := RemoveAt(s, source);
    assert Landing(|s|, source) == source;
    assert InsertAt(rest, source, s[source]) == s by {
      assert rest[..source] == s[..source];
      assert rest[source..] == s[source + 1..];
      assert s == s[..source] + [s[source]] + s[source + 1..];
    }
  }

  /** Reordering commutes with looking at each stop. */
  lemma ReorderMap<A, B>(f: A -> B, s: seq<A>, source: nat, destination: nat)
    requires source < |s|
    ensures Map(f, Reorder(s, source, destination)) == Reorder(Map(f, s), source, destination)
  {
    var k := Landing(|s|, destination);
    var r := Reorder(s, source, destination);
    var rest := RemoveAt(s, source);
    var frest := RemoveAt(Map(f, s), source);
    assert Map(f, rest) == frest;
    assert r == InsertAt(rest, k, s[source]);
    assert Map(f, r) == InsertAt(frest, k, f(s[source]));
  }

  /** Renumbering depends only on the stops, not on their old numbers. */
  lemma RenumberingIgnoresOldNumbers(a: seq<RouteAddress>, b: seq<RouteAddress>)
    requires Stops(a) == Stops(b)
    ensures UpdateDeliveryOrder(a) == UpdateDeliveryOrder(b)
  {
    assert |a| == |Stops(a)| == |Stops(b)| == |b|;
    forall i | 0 <= i < |a| ensures UpdateDeliveryOrder(a)[i] == UpdateDeliveryOrder(b)[i] {
      assert Stop(a[i]) == Stop(b[i]);
    }
  }

  /**
   * handleDragEnd: a drop outside the list changes nothing; otherwise the
   * dragged stop moves to the drop position, the rest keep their relative
   * order, and the list is renumbered 1..n. Nothing else changes.
   */
  function HandleDragEnd(st: PlannerState, source: nat, destination: Option<nat>): (s: PlannerState)
    requires destination.Some? ==> source < |st.addresses|
    ensures destination.None? ==> s == st
    ensures s == st.(addresses := s.addresses)
    ensures |s.addresses| == |st.addresses|
    ensures destination.Some? ==>
      var k := Landing(|st.addresses|, destination.value);
      && Stop(s.addresses[k]) == Stop(st.addresses[source])
      && RemoveAt(Stops(s.addresses), k) == RemoveAt(Stops(st.addresses), source)
      && multiset(Stops(s.addresses)) == multiset(Stops(st.addresses))
      && forall i :: 0 <= i < |s.addresses| ==> s.addresses[i].deliveryOrder == Some(i + 1)
  {
    if destination.None? then st
    else
      var items := Reorder(st.addresses, source, destination.value);
      var updated := UpdateDeliveryOrder(items);
      ReorderMap(Stop, st.addresses, source, destination.value);
      st.(addresses := updated)
  }

  /**
   * Dragging a stop and then dragging it back gives the list renumbered
   * 1..n; a list already numbered that way comes back exactly.
   */
  lemma DragBackRestores(st: PlannerState, source: nat, destination: nat)
    requires source < |st.addresses|
    ensures var moved := HandleDragEnd(st, source, Some(destination));
      var back := HandleDragEnd(moved, Landing(|st.addresses|, destination), Some(source));
      && back.addresses == UpdateDeliveryOrder(st.addresses)
      && (st.addresses == UpdateDeliveryOrder(st.addresses) ==> back == st)
  {
    var s := st.addresses;
    var k := Landing(|s|, destination);
    var moved := HandleDragEnd(st, source, Some(destination));
    var a1 := Reorder(s, source, destination);
    var a2 := Reorder(moved.addresses, k, source);
    ReorderMap(Stop, s, source, destination);
    ReorderMap(Stop, moved.addresses, k, source);
    ReorderBackRestores(Stops(s), source, destination);
    assert Stops(a2) == Reorder(Reorder(Stops(s), source, destination), k, source);
    assert Stops(a2) == Stops(s);
    RenumberingIgnoresOldNumbers(a2, s);
  }

  // ---------------------------------------------------------------------------
  // calculateRoute

  /**
   * calculateRoute: without an origin, without stops, or while a
   * calculation runs, nothing happens; otherwise the waypoints are drawn
   * from the origin through the stops in delivery order, back to the origin
   * when asked, and the map is told to redraw.
   */
  function CalculateRoute(st: PlannerState, forceReturn: bool): (s: PlannerState)
    ensures st.origin.None? || |st.addresses| < 1 || st.isCalculatingRoute ==> s == st
    ensures st.origin.Some? && |st.addresses| >= 1 && !st.isCalculatingRoute ==>
      && s == st.(waypoints := s.waypoints, routeKey := st.routeKey + 1)
      && s.waypoints == CreateWaypoints(st.origin, st.addresses, forceReturn)
      && |s.waypoints| >= |st.addresses| + 1
      && s.waypoints[0] == PositionOf(st.origin.value)
      && multiset(s.waypoints[1..|st.addresses| + 1]) == multiset(Positions(st.addresses))
  {
    if st.origin.None? || |st.addresses| < 1 || st.isCalculatingRoute then st
    else
      var points := CreateWaypoints(st.origin, st.addresses, forceReturn);
      WaypointsArePermutedPositions(st.origin.value, st.addresses, forceReturn);
      st.(waypoints := points, routeKey := st.routeKey + 1)
  }

  /**
   * After a drag the route is drawn in the new list order: the origin, the
   * stops as they now stand, and the origin again when returning to an
   * origin with non-zero coordinates.
   */
  lemma RouteFollowsDraggedOrder(st: PlannerState, source: nat, destination: nat, forceReturn: bool)
    requires source < |st.addresses|
    requires st.origin.Some? && !st.isCalculatingRoute
    ensures var moved := HandleDragEnd(st, source, Some(destination));
      var o := st.origin.value;
      CalculateRoute(moved, forceReturn).waypoints
        == [PositionOf(o)] + Positions(moved.addresses)
           + (if forceReturn && HasTruthyCoordinates(o) then [PositionOf(o)] else [])
  {
    var moved := HandleDragEnd(st, source, Some(destination));
    var items := Reorder(st.addresses, source, destination);
    SortAfterUpdateIsIdentity(items);
  }
}

=== FILE: seqs.dfy ===
/** Sequence helpers shared by the route modules. */
module Seqs {

  /** `s.map(f)`. */
  function Map<A, B>(f: A -> B, s: seq<A>): (r: seq<B>)
    ensures |r| == |s|
    ensures forall i :: 0 <= i < |s| ==> r[i] == f(s[i])
  {
    seq(|s|, i requires 0 <= i < |s| => f(s[i]))
  }

  lemma MapConcat<A, B>(f: A -> B, a: seq<A>, b: seq<A>)
    ensures Map(f, a + b) == Map(f, a) + Map(f, b)
  {
  }

  /** `r` is `s` with some elements left out, the rest in their order. */
  predicate IsSubsequence<T(==)>(r: seq<T>, s: seq<T>)
    decreases |s|
  {
    |r| == 0 || (|s| > 0 && ((r[0] == s[0] && IsSubsequence(r[1..], s[1..])) || IsSubsequence(r, s[1..])))
  }

  /** Everything in a subsequence comes from the sequence. */
  lemma {:induction false} SubsequenceMembers<T>(r: seq<T>, s: seq<T>)
    requires IsSubsequence(r, s)
    ensures forall x :: x in r ==> x in s
    decreases |s|
  {
    if |r| > 0 {
      if r[0] == s[0] && IsSubsequence(r[1..], s[1..]) {
        SubsequenceMembers(r[1..], s[1..]);
        assert r == [r[0]] + r[1..];
      } else {
        SubsequenceMembers(r, s[1..]);
      }
    }
  }

  /** `s` without its element at index `i` (`splice(i, 1)`). */
  function RemoveAt<T>(s: seq<T>, i: nat): (r: seq<T>)
    requires i < |s|
    ensures |r| == |s| - 1
    ensures multiset(r) == multiset(s) - multiset{s[i]}
  {
    assert s == s[..i] + [s[i]] + s[i + 1..];
    s[..i] + s[i + 1..]
  }

  /** Mapping commutes with removing one element, counted as a multiset. */
  lemma MapRemoveAt<A, B>(f: A -> B, b: seq<A>, m: nat)
    requires m < |b|
    ensures multiset(Map(f, b)) == multiset(Map(f, RemoveAt(b, m))) + multiset{f(b[m])}
  {
    assert b == b[..m] + [b[m]] + b[m + 1..];
    MapConcat(f, b[..m] + [b[m]], b[m + 1..]);
    MapConcat(f, b[..m], [b[m]]);
    MapConcat(f, b[..m], b[m + 1..]);
  }

  /** Mapping a permutation gives a permutation. */
  lemma {:induction false} MapPermutation<A, B>(f: A -> B, a: seq<A>, b: seq<A>)
    requires multiset(a) == multiset(b)
    ensures multiset(Map(f, a)) == multiset(Map(f, b))
    decreases |a|
  {
    if |a| > 0 {
      assert a[0] in multiset(b);
      var m :| 0 <= m < |b| && b[m] == a[0];
      var rest := RemoveAt(b, m);
      assert a == [a[0]] + a[1..];
      assert multiset(a[1..]) == multiset(rest);
      MapPermutation(f, a[1..], rest);
      MapConcat(f, [a[0]], a[1..]);
      assert Map(f, [a[0]]) == [f(a[0])];
      assert multiset(Map(f, a)) == multiset{f(a[0])} + multiset(Map(f, a[1..]));
      MapRemoveAt(f, b, m);
    }
  }
}

=== FILE: text.dfy ===
/**
 * The handful of JavaScript string built-ins the application leans on:
 * `trim`, `toLowerCase` (both on ASCII), `length` (in UTF-16 code units),
 * `includes`, deleting every non-digit (`replace(/\D/g, "")`) and printing
 * a number in decimal.
 */
module Text {

  predicate IsDigit(c: char) {
    '0' <= c <= '9'
  }

  predicate AllDigits(s: string) {
    forall i :: 0 <= i < |s| ==> IsDigit(s[i])
  }

  /** The ASCII characters `String.prototype.trim` removes. */
  predicate IsSpace(c: char) {
    c == ' ' || c == '\t' || c == '\n' || c == '\r' || c == '\U{B}' || c == '\U{C}'
  }

  /** Drops leading white space: what remains is a suffix of `s`. */
  function TrimStart(s: string): (r: string)
    ensures |r| <= |s| && r == s[|s| - |r|..]
    ensures forall i :: 0 <= i < |s| - |r| ==> IsSpace(s[i])
    ensures |r| > 0 ==> !IsSpace(r[0])
  {
    if |s| > 0 && IsSpace(s[0]) then TrimStart(s[1..]) else s
  }

  /** Drops trailing white space: what remains is a prefix of `s`. */
  function TrimEnd(s: string): (r: string)
    ensures |r| <= |s| && r == s[..|r|]
    ensures forall i :: |r| <= i < |s| ==> IsSpace(s[i])
    ensures |r| > 0 ==> !IsSpace(r[|r| - 1])
  {
    if |s| > 0 && IsSpace(s[|s| - 1]) then TrimEnd(s[..|s| - 1]) else s
  }

  /** `s.trim()`. */
  function Trim(s: string): (r: string)
    ensures |r| <= |s|
    ensures |r| > 0 ==> !IsSpace(r[0]) && !IsSpace(r[|r| - 1])
  {
    TrimEnd(TrimStart(s))
  }

  /** What `trim` keeps is one contiguous slice of `s`, starting where `trimStart` cut. */
  lemma TrimIsSlice(s: string, p: nat, m: nat)
    requires p == |s| - |TrimStart(s)| && m == |Trim(s)|
    ensures p + m <= |s| && Trim(s) == s[p..p + m]
  {
    var a := TrimStart(s);
    assert a == s[p..];
    assert TrimEnd(a) == a[..m];
    SliceOfSuffix(s, p, m);
  }

  /** Cutting a prefix off a suffix leaves a middle slice. */
  lemma SliceOfSuffix<T>(s: seq<T>, p: nat, m: nat)
    requires p + m <= |s|
    ensures s[p..][..m] == s[p..p + m]
  {
  }

  /** The UTF-16 code units of one character: two beyond the Basic Multilingual Plane. */
  function CodeUnits(c: char): nat {
    if c as int > 0xFFFF then 2 else 1
  }

  /** `s.length`, which counts UTF-16 code units rather than characters. */
  function JsLength(s: string): (n: nat)
    ensures |s| <= n <= 2 * |s|
    decreases |s|
  {
    if |s| == 0 then 0 else CodeUnits(s[0]) + JsLength(s[1..])
  }

  /** Strings that agree character by character on their code-unit counts have one `length`. */
  lemma {:induction false} JsLengthPointwise(x: string, y: string)
    requires |x| == |y|
    requires forall i :: 0 <= i < |x| ==> CodeUnits(x[i]) == CodeUnits(y[i])
    ensures JsLength(x) == JsLength(y)
    decreases |x|
  {
    if |x| > 0 {
      JsLengthPointwise(x[1..], y[1..]);
    }
  }

  function LowerChar(c: char): char {
    if 'A' <= c <= 'Z' then (c as int + 32) as char else c
  }

  /** `s.toLowerCase()`. */
  function ToLower(s: string): (r: string)
    ensures |r| == |s|
  {
    seq(|s|, i requires 0 <= i < |s| => LowerChar(s[i]))
  }

  predicate StartsWith(s: string, pat: string) {
    |pat| <= |s| && s[..|pat|] == pat
  }

  /** `s.includes(pat)`: `pat` starts at some position of `s`. */
  predicate Contains(s: string, pat: string)
    decreases |s|
  {
    StartsWith(s, pat) || (|s| > 0 && Contains(s[1..], pat))
  }

  /** `includes` means what it says: `pat` starts at some position of `s`. */
  lemma {:induction false} ContainsIffSomePosition(s: string, pat: string)
    ensures Contains(s, pat) <==> exists i :: 0 <= i <= |s| && StartsWith(s[i..], pat)
    decreases |s|
  {
    if |s| > 0 {
      ContainsIffSomePosition(s[1..], pat);
      assert forall i :: 1 <= i <= |s| ==> s[1..][i - 1..] == s[i..];
      if Contains(s[1..], pat) {
        var i :| 0 <= i <= |s[1..]| && StartsWith(s[1..][i..], pat);
        assert s[1..][i..] == s[i + 1..];
      }
    } else {
      assert s[0..] == s;
    }
    assert s[0..] == s;
  }

  /**
   * A pattern is not in `s` when every occurrence of its first character
   * sits too close to the end of `s` for the rest to fit.
   */
  lemma NoRoomForPattern(s: string, pat: string)
    requires |pat| > 0
    requires forall i :: 0 <= i < |s| && s[i] == pat[0] ==> |s| - i < |pat|
    ensures !Contains(s, pat)
  {
    ContainsIffSomePosition(s, pat);
    assert forall i :: 0 <= i <= |s| ==> !StartsWith(s[i..], pat);
  }

  /** A pattern whose first character never occurs in `s` is not in `s`. */
  lemma AbsentInitial(s: string, pat: string)
    requires |pat| > 0 && pat[0] !in s
    ensures !Contains(s, pat)
  {
    NoRoomForPattern(s, pat);
  }

  /**
   * `s.replace(/\D/g, "")`: the digits of `s`, in order. A single
   * character is kept when it is a digit and deleted otherwise; with
   * DigitsOnlyConcat this fixes the result for every string.
   */
  function DigitsOnly(s: string): (r: string)
    ensures AllDigits(r)
    ensures |r| <= |s|
    ensures AllDigits(s) ==> r == s
    ensures |s| == 1 ==> r == (if IsDigit(s[0]) then s else "")
  {
    if |s| == 0 then ""
    else if IsDigit(s[0]) then [s[0]] + DigitsOnly(s[1..])
    else DigitsOnly(s[1..])
  }

  /** Deleting non-digits works piecewise: no digit is lost, moved or invented. */
  lemma {:induction false} DigitsOnlyConcat(a: string, b: string)
    ensures DigitsOnly(a + b) == DigitsOnly(a) + DigitsOnly(b)
    decreases |a|
  {
    if |a| > 0 {
      assert (a + b)[1..] == a[1..] + b;
      DigitsOnlyConcat(a[1..], b);
    } else {
      assert a + b == b;
    }
  }

  function DigitChar(d: nat): char
    requires d < 10
  {
    ('0' as int + d) as char
  }

  /** A non-negative integer in decimal, as a template literal prints it. */
  function NatToString(n: nat): (r: string)
    ensures |r| > 0 && AllDigits(r)
    decreases n
  {
    if n < 10 then [DigitChar(n)] else NatToString(n / 10) + [DigitChar(n % 10)]
  }

  /** Different numbers print differently. */
  lemma {:induction false} NatToStringInjective(a: nat, b: nat)
    requires NatToString(a) == NatToString(b)
    ensures a == b
    decreases a
  {
    var sa, sb := NatToString(a), NatToString(b);
    if a >= 10 && b >= 10 {
      assert NatToString(a / 10) == sa[..|sa| - 1] == sb[..|sb| - 1] == NatToString(b / 10);
      NatToStringInjective(a / 10, b / 10);
      assert DigitChar(a % 10) == sa[|sa| - 1] == DigitChar(b % 10);
    }
  }
}

=== FILE: wrappers.dfy ===
/** Optional values, standing in for TypeScript's `undefined` and `null`. */
module Wrappers {

  datatype Option<+T> = None | Some(value: T) {

    /** The value, or `default` when absent (TypeScript's `??`). */
    function GetOr(default: T): T {
      match this
      case Some(v) => v
      case None => default
    }
  }
}
